=== FILE: README.md ===
# DotNetMemoryLab core, modelled in Dafny

DotNetMemoryLab is a desktop tool that samples a .NET process's memory. Each
tick it records the process memory, the garbage collector's counters and a
per-generation heap breakdown. It publishes the result as an immutable
`MemorySnapshot` to subscribers. A UI store projects each snapshot into a
`UiState` that carries a bounded history of the managed heap size, and
republishes it through a UI dispatcher. A placement advisor explains where an
allocation would land (stack, small-object, large-object or pinned-object
heap). A demonstration allocator creates buffers on those heaps and manages a
no-GC region.

This project models that core as immutable datatypes and pure functions:

- `numerics.dfy`: the fixed-width integers. C# `checked` arithmetic is a
  `Checked` result (`Ok` or `Overflow`). The truncating `double` cast is
  `Trunc`, and unchecked 64-bit wrap-around is `Wrap64`.
- `byte_size.dfy`, `percent.dfy`: the two value primitives.
- `domain_types.dfy`: the enums and the records that carry no behaviour.
- `heap_breakdown.dfy`, `threads_snapshot.dfy`, `memory_snapshot.dfy`: the
  derived values.
- `placement_advisor.dfy`: the placement decision.
- `gc_metrics_aggregator.dfy`: the last-known-counter state and its
  projection into collector stats.
- `runtime_counters.dfy`: the extraction of counter updates from event
  payloads.
- `observers.dfy`: the observer registry shared by the snapshot service and
  the UI store. It holds the list, a replay-of-one latest value,
  `List.Remove`-style disposal, and the fan-out over a copy of the list.
  Re-entrant subscribe and dispose calls made from an observer's callback are
  given as input ("reactions").
- `memory_service.dfy`: one sampling tick.
- `ui_state.dfy`, `ui_store.dfy`: the history push, and the store as a state
  machine. Its dispatcher is a FIFO of pending publications that a separate
  step runs.
- `memory_allocator.dfy`: the allocator's bookkeeping. Its runtime calls are
  inputs.

Behaviour of the code worth noting, which the model keeps:

- `ByteSize` accepts negative byte counts.
- A `time-in-gc` value of 1.5 is stored as 1.5%, not scaled to 100%.
- `UiStore.Dispose` clears its observers.
- Disposing a handle twice removes a second registration if the same observer
  was registered twice.
- A failing process read ends the sampling loop rather than skipping one tick.
- The stack-reserve sum wraps around on overflow.

## Model

| member | source | states |
|---|---|---|
| Numerics.CheckedAdd | src/DotNetMemoryLab/DotNetMemoryLab.Domain/Primitives/ByteSize.cs:45 | `checked` long addition: succeeds exactly when the sum fits in int64, giving the sum |
| Numerics.CheckedSub | src/DotNetMemoryLab/DotNetMemoryLab.Domain/Primitives/ByteSize.cs:50 | `checked` long subtraction: succeeds exactly when the difference fits in int64, giving it |
| Numerics.CheckedMul | src/DotNetMemoryLab/DotNetMemoryLab.Domain/Primitives/ByteSize.cs:35-40 | `checked` long multiplication: succeeds exactly when the product fits in int64, giving it |
| Numerics.Wrap64 | src/DotNetMemoryLab/DotNetMemoryLab.Domain/Models/ThreadsSnapshot.cs:29 | unchecked long `+=`: the result is in int64 range and congruent to the exact sum modulo 2^64 |
| Numerics.Trunc | src/DotNetMemoryLab/DotNetMemoryLab.Diagnostics/Runtime/GcMetricsAggregator.cs:31 | the `(long)` cast of a double rounds toward zero: the result is within 1 of the input, on the same side of zero |
| ByteSizes.FromBytes | src/DotNetMemoryLab/DotNetMemoryLab.Domain/Primitives/ByteSize.cs:30 | any int64 is stored unchanged, negatives included |
| ByteSizes.FromKilobytes | src/DotNetMemoryLab/DotNetMemoryLab.Domain/Primitives/ByteSize.cs:35 | succeeds exactly when k*1024 fits in int64, giving k*1024 bytes; otherwise overflows |
| ByteSizes.FromMegabytes | src/DotNetMemoryLab/DotNetMemoryLab.Domain/Primitives/ByteSize.cs:40 | succeeds exactly when m*1024*1024 fits in int64, giving that many bytes; otherwise overflows |
| ByteSizes.Add | src/DotNetMemoryLab/DotNetMemoryLab.Domain/Primitives/ByteSize.cs:45 | the sum of the byte counts when it fits in int64; otherwise an overflow |
| ByteSizes.Sub | src/DotNetMemoryLab/DotNetMemoryLab.Domain/Primitives/ByteSize.cs:50 | the difference of the byte counts when it fits in int64; otherwise an overflow |
| ByteSizes.ZeroIsAddIdentity | src/DotNetMemoryLab/DotNetMemoryLab.Domain/Primitives/ByteSize.cs:25-45 | `Zero` holds 0 bytes, and adding it on either side returns the other operand without overflow |
| ByteSizes.AddThenSubRoundTrip | src/DotNetMemoryLab/DotNetMemoryLab.Domain/Primitives/ByteSize.cs:45-50 | when `a + b` does not overflow, `(a + b) - b` does not overflow either and gives back `a` |
| ByteSizes.MegabytesAreKilobytesTimes1024 | src/DotNetMemoryLab/DotNetMemoryLab.Domain/Primitives/ByteSize.cs:35-40 | m megabytes, overflow included, is the same as m*1024 kilobytes |
| ByteSizes.ComparisonsAreOneOrder | src/DotNetMemoryLab/DotNetMemoryLab.Domain/Primitives/ByteSize.cs:55-70 | `<` and `>=` are complements, as are `>` and `<=`; `>` is `<` with the operands swapped; `<=` is transitive and total |
| Percents.Of | src/DotNetMemoryLab/DotNetMemoryLab.Domain/Primitives/Percent.cs:14 | the stored value is always in [0, 100]: inputs already in range are kept, lower ones give 0, higher ones give 100 |
| Percents.FromRatio | src/DotNetMemoryLab/DotNetMemoryLab.Domain/Primitives/Percent.cs:31 | always in [0, 100]; a ratio in [0, 1] gives ratio*100, a negative ratio gives 0, a ratio above 1 gives 100 |
| Percents.OfIsIdempotent | src/DotNetMemoryLab/DotNetMemoryLab.Domain/Primitives/Percent.cs:14-25 | `Zero` is 0; re-clamping a percent changes nothing, and every in-range percent is its own clamp |
| Percents.FromRatioExamples | src/DotNetMemoryLab/DotNetMemoryLab.Domain/Primitives/Percent.cs:31 | 0.5 gives 50, -0.2 gives 0, 1.4 gives 100 |
| Percents.FromRatioIsMonotone | src/DotNetMemoryLab/DotNetMemoryLab.Domain/Primitives/Percent.cs:31 | a larger ratio never gives a smaller percent |
| HeapBreakdowns.SohTotal | src/DotNetMemoryLab/DotNetMemoryLab.Domain/Models/HeapBreakdown.cs:38 | Gen0 + Gen1 + Gen2, overflowing exactly when one of the two partial sums leaves int64 |
| HeapBreakdowns.TotalCommitted | src/DotNetMemoryLab/DotNetMemoryLab.Domain/Models/HeapBreakdown.cs:43 | the five-part sum, overflowing exactly when one of the four partial sums leaves int64 |
| HeapBreakdowns.ShareOfTotal | src/DotNetMemoryLab/DotNetMemoryLab.Domain/Models/HeapBreakdown.cs:48-61 | the zero-total guard: a zero total gives 0% with no division; otherwise the percent of part/total; always in [0, 100] |
| HeapBreakdowns.SohPercentOfTotal | src/DotNetMemoryLab/DotNetMemoryLab.Domain/Models/HeapBreakdown.cs:48-49 | defined exactly when the totals do not overflow, and always in [0, 100], whatever the signs of the sizes |
| HeapBreakdowns.LohPercentOfTotal | src/DotNetMemoryLab/DotNetMemoryLab.Domain/Models/HeapBreakdown.cs:54-55 | defined exactly when the totals do not overflow, and always in [0, 100] |
| HeapBreakdowns.PohPercentOfTotal | src/DotNetMemoryLab/DotNetMemoryLab.Domain/Models/HeapBreakdown.cs:60-61 | defined exactly when the totals do not overflow, and always in [0, 100] |
| HeapBreakdowns.ZeroTotalGivesZeroShares | src/DotNetMemoryLab/DotNetMemoryLab.Domain/Models/HeapBreakdown.cs:48-61 | a zero total makes all three percents 0 |
| HeapBreakdowns.CancellingComponentsGiveZeroShares | src/DotNetMemoryLab/DotNetMemoryLab.Domain/Models/HeapBreakdown.cs:48-61 | non-zero components that cancel out still give three 0% shares |
| HeapBreakdowns.SharesSumTo100 | src/DotNetMemoryLab/DotNetMemoryLab.Domain/Models/HeapBreakdown.cs:48-61 | with non-negative sizes and a positive total, the SOH, LOH and POH percents add up to 100 |
| HeapBreakdowns.OnlySizesMatter | src/DotNetMemoryLab/DotNetMemoryLab.Domain/Models/HeapBreakdown.cs:38-61 | breakdowns whose sizes agree have equal totals and percents, whatever their collections, deltas and tags |
| ThreadsSnapshots.EstimatedTotalStackReserve | src/DotNetMemoryLab/DotNetMemoryLab.Domain/Models/ThreadsSnapshot.cs:23-32 | the loop's unchecked total is the sum of the reserves modulo 2^64; it is the exact sum when that fits in int64, and 0 for no threads |
| ThreadsSnapshots.ReserveSumAppend | src/DotNetMemoryLab/DotNetMemoryLab.Domain/Models/ThreadsSnapshot.cs:28-29 | appending a thread adds exactly its reserve to the sum |
| ThreadsSnapshots.ReserveSumIgnoresOtherFields | src/DotNetMemoryLab/DotNetMemoryLab.Domain/Models/ThreadsSnapshot.cs:23-32 | thread lists with the same reserves give the same sum, whatever their ids, call depths and UI flags |
| ThreadsSnapshots.ReserveSumBoundsEach | src/DotNetMemoryLab/DotNetMemoryLab.Domain/Models/ThreadsSnapshot.cs:28-29 | with non-negative reserves, the sum is at least each thread's reserve |
| ThreadsSnapshots.ReserveSumNonNegative | src/DotNetMemoryLab/DotNetMemoryLab.Domain/Models/ThreadsSnapshot.cs:28-29 | non-negative reserves have a non-negative sum |
| MemorySnapshots.TotalManagedCommitted | src/DotNetMemoryLab/DotNetMemoryLab.Domain/Models/MemorySnapshot.cs:38 | the heap breakdown's checked total: the five-part sum, or an overflow |
| MemorySnapshots.FragmentedBytes | src/DotNetMemoryLab/DotNetMemoryLab.Domain/Models/MemorySnapshot.cs:43 | the collector stats' fragmented bytes |
| MemorySnapshots.DerivedValuesIgnoreOtherParts | src/DotNetMemoryLab/DotNetMemoryLab.Domain/Models/MemorySnapshot.cs:38-43 | changing the timestamp, process metrics or threads changes neither derived value |
| MemorySnapshots.ManagedTotalIndependentOfGcTotal | src/DotNetMemoryLab/DotNetMemoryLab.Domain/Models/MemorySnapshot.cs:38 | a snapshot can report a managed total of 100 bytes while its collector stats report 0 committed bytes |
| PlacementAdvisor.Advise | src/DotNetMemoryLab/DotNetMemoryLab.Domain/Rules/PlacementAdvisor.cs:23-49 | Stack exactly when stack-allocated; POH exactly when pinned and not stack-allocated; LOH exactly for other arrays of at least 85,000 bytes; SOH otherwise; a generation (Gen0) is given exactly for SOH |
| PlacementAdvisor.ThresholdIsInclusive | src/DotNetMemoryLab/DotNetMemoryLab.Domain/Rules/PlacementAdvisor.cs:37 | an array of 84,999 bytes goes to SOH and one of 85,000 bytes to LOH |
| PlacementAdvisor.NonArraysNeverLarge | src/DotNetMemoryLab/DotNetMemoryLab.Domain/Rules/PlacementAdvisor.cs:37-49 | a class or struct is never LOH, and is SOH unless stack-allocated or pinned |
| PlacementAdvisor.StackAllocDecidesAlone | src/DotNetMemoryLab/DotNetMemoryLab.Domain/Rules/PlacementAdvisor.cs:23-29 | a stack-allocated query gets the same advice whatever its kind, size and pinning |
| GcMetricsAggregator.CounterOf | src/DotNetMemoryLab/DotNetMemoryLab.Diagnostics/Runtime/GcMetricsAggregator.cs:28-59 | a recognised name selects the counter carrying that name |
| GcMetricsAggregator.NamesIdentifyCounters | src/DotNetMemoryLab/DotNetMemoryLab.Diagnostics/Runtime/GcMetricsAggregator.cs:28-59 | names and counters correspond one to one: a name selects a counter exactly when it is that counter's name |
| GcMetricsAggregator.TimeInGcPercent | src/DotNetMemoryLab/DotNetMemoryLab.Diagnostics/Runtime/GcMetricsAggregator.cs:50-54 | always in [0, 100]; a value in [0, 1] is a ratio scaled by 100; a value in (1, 100] is kept; anything else is clamped |
| GcMetricsAggregator.Coerced | src/DotNetMemoryLab/DotNetMemoryLab.Diagnostics/Runtime/GcMetricsAggregator.cs:30-58 | sizes are truncated toward zero; allocated bytes are never negative, and non-positive values give 0; time in GC is a percentage |
| GcMetricsAggregator.CoercionExamples | src/DotNetMemoryLab/DotNetMemoryLab.Diagnostics/Runtime/GcMetricsAggregator.cs:50-58 | time in GC: 1.0 gives 100, 1.5 gives 1.5, 0.25 gives 25 and -3 gives 0; allocated bytes: -5 gives 0 and 12.75 gives 12; a size of -2.5 gives -2 |
| GcMetricsAggregator.OnCounter | src/DotNetMemoryLab/DotNetMemoryLab.Diagnostics/Runtime/GcMetricsAggregator.cs:26-60 | an unrecognised name leaves the state unchanged; a recognised one sets its own field to the coerced value and leaves every other field alone |
| GcMetricsAggregator.LastWriteWins | src/DotNetMemoryLab/DotNetMemoryLab.Diagnostics/Runtime/GcMetricsAggregator.cs:28-58 | two writes to the same name leave the state the second write alone would leave |
| GcMetricsAggregator.DistinctCountersCommute | src/DotNetMemoryLab/DotNetMemoryLab.Diagnostics/Runtime/GcMetricsAggregator.cs:28-58 | writes to different counters can be swapped |
| GcMetricsAggregator.OnCounterPreservesValid | src/DotNetMemoryLab/DotNetMemoryLab.Diagnostics/Runtime/GcMetricsAggregator.cs:50-54 | the stored time in GC is a percentage at the start and stays one after every update |
| GcMetricsAggregator.Build | src/DotNetMemoryLab/DotNetMemoryLab.Diagnostics/Runtime/GcMetricsAggregator.cs:66-120 | each size slot holds its counter's field under the right generation or heap tag; per-generation collections equal the stats' counts and the query's; the stats carry the stored allocation total and time in GC (clamped into [0, 100]) and the queried memory figures |
| GcMetricsAggregator.BuildBeforeAnyCounter | src/DotNetMemoryLab/DotNetMemoryLab.Diagnostics/Runtime/GcMetricsAggregator.cs:13-19 | before any counter arrives, all sizes, the allocation total, time in GC and the heap's total are zero |
| GcMetricsAggregator.CounterReachesItsSlot | src/DotNetMemoryLab/DotNetMemoryLab.Diagnostics/Runtime/GcMetricsAggregator.cs:30-48 | a size counter's update appears, truncated, in exactly its own slot of the next build |
| RuntimeCounters.NameOf | src/DotNetMemoryLab/DotNetMemoryLab.Diagnostics/Runtime/RuntimeCountersService.cs:66-68 | an item yields a name exactly when it is a dictionary whose "Name" entry is a string, and then it is that string |
| RuntimeCounters.ValueOf | src/DotNetMemoryLab/DotNetMemoryLab.Diagnostics/Runtime/RuntimeCountersService.cs:70-77 | the "Value" double, else the "Mean" double, else the "Increment" double, else 0 |
| RuntimeCounters.ValueComesFromPayload | src/DotNetMemoryLab/DotNetMemoryLab.Diagnostics/Runtime/RuntimeCountersService.cs:70-77 | a non-zero value is a double found under one of the three keys |
| RuntimeCounters.Updates | src/DotNetMemoryLab/DotNetMemoryLab.Diagnostics/Runtime/RuntimeCountersService.cs:64-81 | at most one update per payload item |
| RuntimeCounters.UpdatesOfOneItem | src/DotNetMemoryLab/DotNetMemoryLab.Diagnostics/Runtime/RuntimeCountersService.cs:64-81 | a named item gives exactly one update with its name and value; any other item gives none |
| RuntimeCounters.UpdatesDistribute | src/DotNetMemoryLab/DotNetMemoryLab.Diagnostics/Runtime/RuntimeCountersService.cs:64-81 | the updates of concatenated payloads are the concatenated updates, so payload order is call order |
| RuntimeCounters.OnEventWritten | src/DotNetMemoryLab/DotNetMemoryLab.Diagnostics/Runtime/RuntimeCountersService.cs:61-62 | a missing payload changes nothing |
| RuntimeCounters.EventIsProcessedItemByItem | src/DotNetMemoryLab/DotNetMemoryLab.Diagnostics/Runtime/RuntimeCountersService.cs:64-81 | one event with payload a+b leaves the same state as an event with a followed by one with b |
| RuntimeCounters.UnrecognisedNamesChangeNothing | src/DotNetMemoryLab/DotNetMemoryLab.Diagnostics/Runtime/RuntimeCountersService.cs:79 | items that are unnamed or carry unrecognised names reach the aggregator and leave its state unchanged |
| RuntimeCounters.SingleSizeCounterExample | src/DotNetMemoryLab/DotNetMemoryLab.Diagnostics/Runtime/RuntimeCountersService.cs:66-79 | an item named gen-0-size with Mean 4096.9 sets the Gen0 size to 4096 (Mean wins over Increment) |
| UiStates.WithPushedManaged | src/DotNetMemoryLab/DotNetMemoryLab.Presentation/State/UiState.cs:32-48 | snapshot and capacity unchanged; the new head is the pushed value; the old entries follow in order; the length is min(max(cap, 1), old length + 1), so never more than a positive capacity |
| UiStates.PushAllKeepsMostRecent | src/DotNetMemoryLab/DotNetMemoryLab.Presentation/State/UiState.cs:36-45 | after any sequence of pushes, the history is the most recent values first, followed by the old history, cut to the capacity |
| UiStates.PushExample | src/DotNetMemoryLab/DotNetMemoryLab.Presentation/State/UiState.cs:36-45 | pushing 10, 20, 30, 40 into an empty history of capacity 3 gives [40, 30, 20] |
| Observers.RemoveFirst | src/DotNetMemoryLab/DotNetMemoryLab.Diagnostics/Services/MemoryService.cs:86 | `List.Remove`: the list with the first occurrence of the observer cut out, or unchanged when it is absent |
| Observers.RemoveFirstTakesOne | src/DotNetMemoryLab/DotNetMemoryLab.Diagnostics/Services/MemoryService.cs:86 | removal takes away exactly one registration (as a multiset) when there is one, and shortens the list by one |
| Observers.SecondRemovalIsNoOp | src/DotNetMemoryLab/DotNetMemoryLab.Presentation/State/UiStore.cs:97-100 | disposing a second time is a no-op exactly when the observer was registered at most once |
| Observers.RemovalLeavesOthers | src/DotNetMemoryLab/DotNetMemoryLab.Presentation/State/UiStore.cs:97-100 | every other observer keeps its number of registrations |
| Observers.Subscribe | src/DotNetMemoryLab/DotNetMemoryLab.Diagnostics/Services/MemoryService.cs:30-40 | the observer is appended, and is replayed the latest value, to it alone, exactly when there is one |
| Observers.Unsubscribe | src/DotNetMemoryLab/DotNetMemoryLab.Diagnostics/Services/MemoryService.cs:84-87 | the observer's first registration is cut out and the rest keep their order (so one registration goes, as a multiset); the latest value is kept; an unregistered observer changes nothing |
| Observers.SubscribeThenDispose | src/DotNetMemoryLab/DotNetMemoryLab.Diagnostics/Services/MemoryService.cs:30-40 | subscribing then disposing restores the registry; for an observer registered already, the oldest registration is the one that goes |
| Observers.FanOut | src/DotNetMemoryLab/DotNetMemoryLab.Diagnostics/Services/MemoryService.cs:71-72 | every target on the copied list receives the value once, in order, whatever the callbacks subscribe or dispose; replays made meanwhile carry the latest value; callbacks that do nothing leave the registry unchanged |
| Observers.Publish | src/DotNetMemoryLab/DotNetMemoryLab.Presentation/State/UiStore.cs:83-84 | each observer registered when publishing starts receives the value once, in list order; replays to observers joining from a callback carry the latest value; callbacks that do nothing leave the registry unchanged |
| Observers.Rounds | src/DotNetMemoryLab/DotNetMemoryLab.Presentation/State/UiStore.cs:81-85 | the calls one fan-out makes, grouped by target: one round per target in list order, each opening with the target receiving the value and going on with the replays of the latest value that its own callback caused; callbacks that do nothing make every round a single delivery |
| Observers.RoundsRegroupFanOut | src/DotNetMemoryLab/DotNetMemoryLab.Diagnostics/Services/MemoryService.cs:71-72 | the rounds are an interleaving of the fan-out's results: their first entries are the fan-out's deliveries, and their remaining entries, concatenated, are the fan-out's replays in order |
| Observers.FanOutUntilThrow | src/DotNetMemoryLab/DotNetMemoryLab.Diagnostics/Services/MemoryService.cs:71-72 | when the callback at position k throws, exactly the targets up to k have received the value, in order: the first k+1 deliveries of the uninterrupted loop; the latest value is kept |
| Observers.ReactionsDoNotChangeNotified | src/DotNetMemoryLab/DotNetMemoryLab.Diagnostics/Services/MemoryService.cs:71-72 | who is notified does not depend on what the callbacks do |
| MemoryService.SnapshotOf | src/DotNetMemoryLab/DotNetMemoryLab.Diagnostics/Services/MemoryService.cs:51-67 | the snapshot carries the clock's time, the process reading and the aggregator's built pair; its threads have the process's count and no list, so a zero stack reserve |
| MemoryService.Tick | src/DotNetMemoryLab/DotNetMemoryLab.Diagnostics/Services/MemoryService.cs:51-72 | the latest value becomes the new snapshot before delivery; each observer registered at the start gets it once, in order; observers joining meanwhile are replayed the new snapshot; its registry is `Announce` of the snapshot with no throw |
| MemoryService.TickUntilThrow | src/DotNetMemoryLab/DotNetMemoryLab.Diagnostics/Services/MemoryService.cs:69-72 | a tick whose k-th callback throws has still replaced the latest value, and has notified exactly the first k+1 observers a full tick would; its registry is `Announce` with the throw at k |
| MemoryService.Announce | src/DotNetMemoryLab/DotNetMemoryLab.Diagnostics/Services/MemoryService.cs:69-72 | a tick's effect on the registry: the snapshot is the latest value, and callbacks that do nothing leave the registry otherwise unchanged |
| MemoryService.Snapshots | src/DotNetMemoryLab/DotNetMemoryLab.Diagnostics/Services/MemoryService.cs:51-67 | the i-th tick's snapshot is built from the i-th sample, one snapshot per sample |
| MemoryService.Serve | src/DotNetMemoryLab/DotNetMemoryLab.Diagnostics/Services/MemoryService.cs:47-77 | the loop over the ticks' snapshots runs every tick unless a callback throws, in which case it stops after a tick that was given a throwing position; a loop that ran no tick leaves the registry as it was |
| MemoryService.AnnounceSetsLatest | src/DotNetMemoryLab/DotNetMemoryLab.Diagnostics/Services/MemoryService.cs:69 | every tick's effect on the registry leaves its snapshot as the latest value, whatever the callbacks do or whether one throws |
| MemoryService.ServeEndsOnLastTick | src/DotNetMemoryLab/DotNetMemoryLab.Diagnostics/Services/MemoryService.cs:69-77 | wherever the loop stopped, the latest value is the snapshot of the last tick that ran |
| MemoryService.ServeEarlierTicksRanInFull | src/DotNetMemoryLab/DotNetMemoryLab.Diagnostics/Services/MemoryService.cs:71-72 | every tick before the stopping one had no throwing position on its own observer list, so the loop stops at the first throw that can happen |
| MemoryService.ServeFaultIsAThrow | src/DotNetMemoryLab/DotNetMemoryLab.Diagnostics/Services/MemoryService.cs:71-77 | a loop that faulted stopped at a tick whose throwing position was on the observer list that tick copied, after full runs of the earlier ticks |
| MemoryService.ServeFaultRegistry | src/DotNetMemoryLab/DotNetMemoryLab.Diagnostics/Services/MemoryService.cs:69-77 | a loop that faulted ends with the registry of the earlier ticks run in full, followed by the stopping tick cut short at its throwing position |
| MemoryService.ServeUnfaultedIsTicks | src/DotNetMemoryLab/DotNetMemoryLab.Diagnostics/Services/MemoryService.cs:49-75 | a loop that did not fault is exactly the plain run of all its ticks |
| MemoryService.FirstTickThrowStops | src/DotNetMemoryLab/DotNetMemoryLab.Diagnostics/Services/MemoryService.cs:71-77 | a callback throwing in the first tick ends the loop after that one tick |
| MemoryService.ServeWithoutThrowsCompletes | src/DotNetMemoryLab/DotNetMemoryLab.Diagnostics/Services/MemoryService.cs:49-75 | with no throwing position given, the loop does not fault and is the plain run of all ticks |
| MemoryService.ThrowingTickStillSetsLatest | src/DotNetMemoryLab/DotNetMemoryLab.Diagnostics/Services/MemoryService.cs:69-72 | after a tick cut short by a throwing callback, a new subscriber is still replayed its snapshot |
| MemoryService.LatestIsLastTick | src/DotNetMemoryLab/DotNetMemoryLab.Diagnostics/Services/MemoryService.cs:69 | after any non-empty run of ticks over samples, the latest value is the snapshot built from the last sample |
| MemoryService.LatestIsLastSnapshot | src/DotNetMemoryLab/DotNetMemoryLab.Diagnostics/Services/MemoryService.cs:69 | after any non-empty run of ticks, the latest value is the last tick's snapshot, whatever the callbacks did |
| MemoryService.LateSubscriberSeesLatest | src/DotNetMemoryLab/DotNetMemoryLab.Diagnostics/Services/MemoryService.cs:30-40 | a subscriber before the first tick gets no replay; one after a tick is replayed that tick's snapshot |
| MemoryService.DisposedDuringTickStillNotified | src/DotNetMemoryLab/DotNetMemoryLab.Diagnostics/Services/MemoryService.cs:71-72 | an observer disposed by an earlier observer's callback is still notified by the running tick, and is gone afterwards |
| UiStore.Create | src/DotNetMemoryLab/DotNetMemoryLab.Presentation/State/UiStore.cs:26-35 | the capacity is max(1, HistoryPoints); there are no observers and nothing queued; construction fails exactly when the provider replays a snapshot whose managed total overflows; otherwise the latest state exists exactly when a snapshot was replayed, holding that snapshot and a history of its total alone |
| UiStore.OnDomainSnapshot | src/DotNetMemoryLab/DotNetMemoryLab.Presentation/State/UiStore.cs:65-86 | fails exactly when the managed total overflows; otherwise the latest state holds the snapshot and the previous history (or an empty one) pushed with its total; one publication is queued exactly when there are observers |
| UiStore.Subscribe | src/DotNetMemoryLab/DotNetMemoryLab.Presentation/State/UiStore.cs:43-53 | the observer is appended and replayed the latest state exactly when there is one |
| UiStore.Unsubscribe | src/DotNetMemoryLab/DotNetMemoryLab.Presentation/State/UiStore.cs:97-100 | the observer's first registration is cut out and the other observers keep their order; an unregistered observer changes nothing; latest, queue, capacity and upstream link unchanged |
| UiStore.Dispose | src/DotNetMemoryLab/DotNetMemoryLab.Presentation/State/UiStore.cs:58-63 | the upstream link is dropped and the observers cleared; the latest state and queue are kept |
| UiStore.DisposeIsIdempotent | src/DotNetMemoryLab/DotNetMemoryLab.Presentation/State/UiStore.cs:58-63 | disposing the store a second time changes nothing |
| UiStore.Step | src/DotNetMemoryLab/DotNetMemoryLab.Presentation/State/UiStore.cs:58-100 | one event fails exactly when it is a snapshot whose managed total overflows, including a snapshot arriving after `Dispose`; the capacity never changes; only a snapshot changes the latest state |
| UiStore.RunDispatched | src/DotNetMemoryLab/DotNetMemoryLab.Presentation/State/UiStore.cs:81-85 | running the oldest queued state pops it and gives one round per observer registered when it runs, in list order: round i opens with that observer receiving the state, and the rest of round i are the replays of the store's latest state (`Subscribe`, lines 47-50) to observers subscribed from that callback, before the next observer is called; with callbacks that do nothing every round is that one delivery and the observers are unchanged; the latest state, capacity and upstream link are kept; an empty queue does nothing |
| UiStore.DispatchedReplayComesFirst | src/DotNetMemoryLab/DotNetMemoryLab.Presentation/State/UiStore.cs:47-50 | with observers 1 and 2, where 1's callback subscribes 2 again, the calls happen in the order 1 gets the queued state, 2 gets the latest state replayed, then 2 gets the queued state |
| UiStore.StepPreservesValid | src/DotNetMemoryLab/DotNetMemoryLab.Presentation/State/UiStore.cs:65-86 | every event keeps the latest history within the capacity, and never unsets the latest state |
| UiStore.LatestStaysSetAndBounded | src/DotNetMemoryLab/DotNetMemoryLab.Presentation/State/UiStore.cs:40-86 | over any run of events, once set the latest state is never unset, and its history stays between 1 and the capacity |
| UiStore.FeedPushesTotals | src/DotNetMemoryLab/DotNetMemoryLab.Presentation/State/UiStore.cs:68-75 | feeding snapshots pushes their managed totals onto the history, in arrival order |
| UiStore.HistoryKeepsLastTotals | src/DotNetMemoryLab/DotNetMemoryLab.Presentation/State/UiStore.cs:68-75 | after n snapshots into a store with no history, the history is the last min(n, capacity) totals, most recent first |
| UiStore.SevenIntoFiveExample | src/DotNetMemoryLab/DotNetMemoryLab.Presentation/State/UiStore.cs:68-75 | totals 100..700 into capacity 5 leave [700, 600, 500, 400, 300] |
| MemoryAllocator.SohLength | src/DotNetMemoryLab/DotNetMemoryLab.Diagnostics/Allocation/MemoryAllocator.cs:21 | the request clamped to [1, int.MaxValue] |
| MemoryAllocator.LohLength | src/DotNetMemoryLab/DotNetMemoryLab.Diagnostics/Allocation/MemoryAllocator.cs:29-30 | the request raised to 85,000 and capped at int.MaxValue |
| MemoryAllocator.LengthsAgreeAboveThreshold | src/DotNetMemoryLab/DotNetMemoryLab.Diagnostics/Allocation/MemoryAllocator.cs:21-39 | from 85,000 bytes the two coercions agree; below it the large one is bigger |
| MemoryAllocator.AllocateSoh | src/DotNetMemoryLab/DotNetMemoryLab.Diagnostics/Allocation/MemoryAllocator.cs:19-24 | exactly one buffer of the clamped length is appended; earlier buffers, handles and flag unchanged; retained bytes grow by that length |
| MemoryAllocator.AllocateLoh | src/DotNetMemoryLab/DotNetMemoryLab.Diagnostics/Allocation/MemoryAllocator.cs:27-33 | exactly one buffer of the large length is appended; nothing else changes |
| MemoryAllocator.AllocatePoh | src/DotNetMemoryLab/DotNetMemoryLab.Diagnostics/Allocation/MemoryAllocator.cs:36-45 | one buffer of the large length and one handle pinning it are added; the handle invariant is kept |
| MemoryAllocator.ReleaseAll | src/DotNetMemoryLab/DotNetMemoryLab.Diagnostics/Allocation/MemoryAllocator.cs:48-64 | no buffers and no handles remain; the no-GC flag is untouched |
| MemoryAllocator.DisposeIsIdempotent | src/DotNetMemoryLab/DotNetMemoryLab.Diagnostics/Allocation/MemoryAllocator.cs:111 | releasing twice is releasing once, and a pinned allocation leaves no trace after release |
| MemoryAllocator.TryStartNoGcRegion | src/DotNetMemoryLab/DotNetMemoryLab.Diagnostics/Allocation/MemoryAllocator.cs:71-90 | an active region answers true without asking the runtime; otherwise the runtime is asked for the size, and the answer and the flag are true exactly when it returned true |
| MemoryAllocator.EndNoGcRegion | src/DotNetMemoryLab/DotNetMemoryLab.Diagnostics/Allocation/MemoryAllocator.cs:93-106 | the flag ends cleared; the runtime is called exactly when a region was active, and its exception propagates |
| MemoryAllocator.StartedMatchesFlag | src/DotNetMemoryLab/DotNetMemoryLab.Diagnostics/Allocation/MemoryAllocator.cs:73-89 | the method returns true exactly when it leaves the flag set |
| MemoryAllocator.RegionLifecycle | src/DotNetMemoryLab/DotNetMemoryLab.Diagnostics/Allocation/MemoryAllocator.cs:71-106 | a started then cleanly ended region restores the allocator; a second start or end in a row does not reach the runtime |
| MemoryAllocator.RunPreservesValid | src/DotNetMemoryLab/DotNetMemoryLab.Diagnostics/Allocation/MemoryAllocator.cs:13-106 | over any sequence of operations, each handle pins a distinct live buffer of at least 85,000 bytes |

## Left out

- `UiStore.Create`: when the constructor's replay throws on overflow, the store's snapshot observer has already been added to the provider's list (MemoryService.cs:34), so later ticks keep feeding the half-built store. The model's `Create` just returns `Overflow` and does not model that leftover registration.
- `MemoryService.ExecuteAsync`: the delay, cancellation and logging are left out; the loop is `Serve` over the snapshots built from a finite list of samples (`Snapshots`). A failing process read also ends the real loop, because only cancellation is caught; that failure is not modelled, since the reading is an input.
- Throwing callbacks: `Serve` takes, per tick, the position of the observer whose `OnNext` throws. The UI store's callback throws exactly when `UiStore.OnDomainSnapshot` overflows, but the two state machines are not composed, so that link is stated here and not proved. A dispatched publication whose observer throws is not modelled: `UiStore.RunDispatched` always completes its fan-out.
- `RuntimeCountersService.ExecuteAsync`, `OnEventSourceCreated`: event-listener lifecycle plumbing; only the payload handling is modelled.
- `ProcessMemoryReader`: operating-system I/O. Its reading is an input to the tick.
- GC runtime calls: the collection counts and memory info are an input (`GcQuery`). `TryStartNoGCRegion` and `EndNoGCRegion` are oracle outcomes. `GCHandle` becomes a buffer index.
- `CollectCompacting`: left out, and so is the forced collection at the end of `ReleaseAll`. Both only call the runtime, so the allocator state is unaffected.
- The runtime can end a no-GC region on its own, after an induced collection or when the budget is exceeded. The allocator's flag does not track that; the model, like the code, trusts the flag.
- Heap placement by the runtime is left out. This covers which heap a buffer actually lands on, and the out-of-memory failure of very large arrays.
- Concurrency: the aggregator is written from the listener thread and the observer lists are unsynchronised. Everything here is a sequence of steps, and no atomicity is claimed.
- Floating point: doubles are reals. NaN, infinities and rounding are not modelled.
- `GcMetricsAggregator.OnCounter`: requires the value's cast to fit its field (`Accepts`). An out-of-range `(long)` or `(ulong)` cast has an unspecified result.
- `RuntimeCounters.OnEventWritten`: requires every extracted update to be accepted, for the same reason. Its own contract covers only the missing payload; the item-by-item behaviour is in the lemmas about `Updates` and `Apply`.
- `UiStates.WithPushedManaged`: requires a non-negative capacity, because a negative one makes the list constructor throw. The store always passes at least 1.
- `HeapBreakdowns.SharesSumTo100`: holds in exact arithmetic; double rounding can make the sum differ slightly from 100.
- Observer callbacks: reentrancy is one level deep. A callback's subscribe or dispose is modelled, but a replay triggered by it does not run further callbacks.
- `OnError`/`OnCompleted` are never called by the code and are not modelled. Neither are the null-observer argument checks.
- The dispatcher is a FIFO queue whose entries run later. The real dispatcher's thread marshalling is not modelled.
- View models, dependency-injection registration, the interfaces without logic, and the `MetricsOptions` fields other than the history size are left out. They carry no core logic.

=== FILE: byte_size.dfy ===
/** A signed 64-bit byte count with overflow-checked arithmetic and
    ordering by the byte count. Negative counts are representable. */
module ByteSizes {
  import opened Numerics

  datatype ByteSize = ByteSize(bytes: int64)

  const Zero: ByteSize := ByteSize(0)

  const BytesPerKilobyte: int64 := 1024

  /** Any long is stored unchanged, negative ones included. */
  function FromBytes(bytes: int64): (r: ByteSize)
    ensures r.bytes == bytes
    ensures bytes < 0 ==> r.bytes < 0
  {
    ByteSize(bytes)
  }

  /** `checked(kilobytes * 1024)`. */
  function FromKilobytes(kilobytes: int64): (r: Checked<ByteSize>)
    ensures r.Ok? <==> MinInt64 <= kilobytes * 1024 <= MaxInt64
    ensures r.Ok? ==> r.value.bytes == kilobytes * 1024
  {
    match CheckedMul(kilobytes, BytesPerKilobyte)
    case Ok(b) => Ok(ByteSize(b))
    case Overflow => Overflow
  }

  /** `checked(megabytes * 1024 * 1024)`: two checked products, left to right;
      it overflows exactly when the final product leaves the long range. */
  function FromMegabytes(megabytes: int64): (r: Checked<ByteSize>)
    ensures r.Ok? <==> MinInt64 <= megabytes * 1048576 <= MaxInt64
    ensures r.Ok? ==> r.value.bytes == megabytes * 1048576
  {
    match CheckedMul(megabytes, BytesPerKilobyte)
    case Overflow =>
      assert megabytes * 1048576 == (megabytes * 1024) * 1024;
      Overflow
    case Ok(k) =>
      assert k * 1024 == megabytes * 1048576;
      match CheckedMul(k, BytesPerKilobyte)
      case Ok(b) => Ok(ByteSize(b))
      case Overflow => Overflow
  }

  /** `a + b`, checked. */
  function Add(a: ByteSize, b: ByteSize): (r: Checked<ByteSize>)
    ensures r.Ok? <==> MinInt64 <= a.bytes + b.bytes <= MaxInt64
    ensures r.Ok? ==> r.value.bytes == a.bytes + b.bytes
  {
    match CheckedAdd(a.bytes, b.bytes)
    case Ok(s) => Ok(ByteSize(s))
    case Overflow => Overflow
  }

  /** `a - b`, checked. */
  function Sub(a: ByteSize, b: ByteSize): (r: Checked<ByteSize>)
    ensures r.Ok? <==> MinInt64 <= a.bytes - b.bytes <= MaxInt64
    ensures r.Ok? ==> r.value.bytes == a.bytes - b.bytes
  {
    match CheckedSub(a.bytes, b.bytes)
    case Ok(d) => Ok(ByteSize(d))
    case Overflow => Overflow
  }

  predicate Less(a: ByteSize, b: ByteSize) {
    a.bytes < b.bytes
  }

  predicate Greater(a: ByteSize, b: ByteSize) {
    a.bytes > b.bytes
  }

  predicate LessOrEqual(a: ByteSize, b: ByteSize) {
    a.bytes <= b.bytes
  }

  predicate GreaterOrEqual(a: ByteSize, b: ByteSize) {
    a.bytes >= b.bytes
  }

  /** Zero is a two-sided identity of the checked addition, which never overflows with it. */
  lemma ZeroIsAddIdentity(a: ByteSize)
    ensures Zero.bytes == 0
    ensures Add(a, Zero) == Ok(a)
    ensures Add(Zero, a) == Ok(a)
  {
  }

  /** Subtracting what was just added gives the original size back; the
      subtraction cannot overflow once the addition did not. */
  lemma AddThenSubRoundTrip(a: ByteSize, b: ByteSize)
    requires Add(a, b).Ok?
    ensures Sub(Add(a, b).value, b) == Ok(a)
  {
  }

  /** A megabyte count converts like a kilobyte count of 1024 times as many. */
  lemma MegabytesAreKilobytesTimes1024(m: int64)
    requires InInt64(m * 1024)
    ensures FromMegabytes(m) == FromKilobytes(m * 1024)
  {
  }

  /** The four comparisons form one total order, the order of byte counts:
      `<` and `>=` are complements, as are `>` and `<=`, and `>` is `<` flipped. */
  lemma ComparisonsAreOneOrder(a: ByteSize, b: ByteSize, c: ByteSize)
    ensures Less(a, b) <==> !GreaterOrEqual(a, b)
    ensures Greater(a, b) <==> !LessOrEqual(a, b)
    ensures Greater(a, b) <==> Less(b, a)
    ensures LessOrEqual(a, b) <==> Less(a, b) || a == b
    ensures LessOrEqual(a, b) && LessOrEqual(b, c) ==> LessOrEqual(a, c)
    ensures LessOrEqual(a, b) || LessOrEqual(b, a)
  {
  }
}

=== FILE: domain_types.dfy ===
/** The enumerations of the domain layer. */
module Enums {

  datatype GenerationKind = Gen0 | Gen1 | Gen2

  datatype HeapKind = SOH | LOH | POH

  datatype ValueKind = Class | Struct | Array

  datatype AllocationFlavor = SOH | LOH | POH | Stack
}

/** The behaviour-free records of the domain layer. */
module Records {
  import opened Numerics
  import opened Enums
  import opened ByteSizes
  import opened Percents

  /** A capture time, kept abstract: only equality matters to the core. */
  datatype Timestamp = Timestamp(ticks: int)

  /** Stats of one small-object-heap generation; `delta` defaults to zero. */
  datatype GenerationStats = GenerationStats(
    generation: GenerationKind,
    size: ByteSize,
    collections: int64,
    delta: ByteSize)

  /** Stats of the large- or pinned-object segment; `delta` defaults to zero. */
  datatype SegmentStats = SegmentStats(
    kind: HeapKind,
    size: ByteSize,
    delta: ByteSize)

  datatype GcStats = GcStats(
    gen0Collections: int64,
    gen1Collections: int64,
    gen2Collections: int64,
    totalAllocatedBytes: uint64,
    timeInGcPercent: Percent,
    totalCommitted: ByteSize,
    totalHeap: ByteSize,
    fragmentedBytes: ByteSize)

  datatype ProcessMemory = ProcessMemory(
    workingSet: ByteSize,
    privateBytes: ByteSize,
    virtualMemory: ByteSize,
    threadCount: int32)

  datatype ThreadInfo = ThreadInfo(
    id: int32,
    stackReserve: ByteSize,
    managedCallDepth: Option<int32>,
    isUiThread: bool)

  datatype PlacementQuery = PlacementQuery(
    valueKind: ValueKind,
    size: ByteSize,
    isPinned: bool,
    isStackAlloc: bool)

  datatype PlacementAdvice = PlacementAdvice(
    flavor: AllocationFlavor,
    initialGeneration: Option<GenerationKind>,
    explanation: string)
}

=== FILE: gc_metrics_aggregator.dfy ===
/** The last-known runtime counter values, updated one named counter at a time,
    and their projection into collector stats and a heap breakdown. */
module GcMetricsAggregator {
  import opened Numerics
  import opened Enums
  import opened ByteSizes
  import opened Percents
  import opened Records
  import opened HeapBreakdowns

  /** The counters the aggregator recognises. */
  datatype Counter = Gen0Size | Gen1Size | Gen2Size | LohSize | PohSize | TimeInGc | AllocatedBytes

  function NameOf(c: Counter): string {
    match c
    case Gen0Size => "gen-0-size"
    case Gen1Size => "gen-1-size"
    case Gen2Size => "gen-2-size"
    case LohSize => "loh-size"
    case PohSize => "poh-size"
    case TimeInGc => "time-in-gc"
    case AllocatedBytes => "allocated-bytes"
  }

  /** The `switch` on the counter name; any other name selects nothing. */
  function CounterOf(name: string): (r: Option<Counter>)
    ensures r.Some? ==> NameOf(r.value) == name
  {
    if name == "gen-0-size" then Some(Gen0Size)
    else if name == "gen-1-size" then Some(Gen1Size)
    else if name == "gen-2-size" then Some(Gen2Size)
    else if name == "loh-size" then Some(LohSize)
    else if name == "poh-size" then Some(PohSize)
    else if name == "time-in-gc" then Some(TimeInGc)
    else if name == "allocated-bytes" then Some(AllocatedBytes)
    else None
  }

  /** Names and counters correspond one to one. */
  lemma NamesIdentifyCounters(c: Counter, name: string)
    ensures CounterOf(NameOf(c)) == Some(c)
    ensures CounterOf(name) == Some(c) <==> name == NameOf(c)
  {
  }

  /** The aggregator's private fields. */
  datatype AggregatorState = AggregatorState(
    gen0Size: int64,
    gen1Size: int64,
    gen2Size: int64,
    lohSize: int64,
    pohSize: int64,
    timeInGcPercent: real,
    allocatedBytes: uint64)

  /** The fields' default values before any counter arrives. */
  const Initial: AggregatorState := AggregatorState(0, 0, 0, 0, 0, 0.0, 0)

  /** The field a counter writes, read as a real. */
  function Field(s: AggregatorState, c: Counter): real {
    match c
    case Gen0Size => s.gen0Size as real
    case Gen1Size => s.gen1Size as real
    case Gen2Size => s.gen2Size as real
    case LohSize => s.lohSize as real
    case PohSize => s.pohSize as real
    case TimeInGc => s.timeInGcPercent
    case AllocatedBytes => s.allocatedBytes as real
  }

  /** The state is determined by its fields. */
  lemma FieldsDetermineState(s: AggregatorState, t: AggregatorState)
    requires forall c: Counter :: Field(s, c) == Field(t, c)
    ensures s == t
  {
    assert Field(s, Gen0Size) == Field(t, Gen0Size);
    assert Field(s, Gen1Size) == Field(t, Gen1Size);
    assert Field(s, Gen2Size) == Field(t, Gen2Size);
    assert Field(s, LohSize) == Field(t, LohSize);
    assert Field(s, PohSize) == Field(t, PohSize);
    assert Field(s, TimeInGc) == Field(t, TimeInGc);
    assert Field(s, AllocatedBytes) == Field(t, AllocatedBytes);
  }

  predicate IsSizeCounter(c: Counter) {
    c in {Gen0Size, Gen1Size, Gen2Size, LohSize, PohSize}
  }

  /** The value's cast into the counter's field stays in range: `(long)value`
      for a size, `(ulong)Math.Max(0, value)` for the allocation total. */
  predicate Representable(c: Counter, value: real) {
    match c
    case TimeInGc => true
    case AllocatedBytes => value.Floor <= MaxUInt64
    case _ => InInt64(Trunc(value))
  }

  /** The time-in-GC heuristic: values up to 1.0 are ratios and are scaled by
      100, larger values are already percentages; the result is clamped. */
  function TimeInGcPercent(value: real): (r: real)
    ensures 0.0 <= r <= 100.0
    ensures 0.0 <= value <= 1.0 ==> r == value * 100.0
    ensures 1.0 < value <= 100.0 ==> r == value
    ensures value < 0.0 || value > 100.0 ==> r == (if value < 0.0 then 0.0 else 100.0)
  {
    var v := if value <= 1.0 then value * 100.0 else value;
    Clamp(v, 0.0, 100.0)
  }

  /** What a counter's field holds after `OnCounter` with `value`. */
  function Coerced(c: Counter, value: real): (r: real)
    requires Representable(c, value)
    ensures IsSizeCounter(c) ==> r == Trunc(value) as real
    ensures c == AllocatedBytes ==> r >= 0.0 && (value <= 0.0 ==> r == 0.0)
    ensures c == AllocatedBytes ==> r == (if value <= 0.0 then 0.0 else Trunc(value) as real)
    ensures c == TimeInGc ==> 0.0 <= r <= 100.0 && r == TimeInGcPercent(value)
  {
    match c
    case TimeInGc => TimeInGcPercent(value)
    case AllocatedBytes => Trunc(if value < 0.0 then 0.0 else value) as real
    case _ => Trunc(value) as real
  }

  /** The edge cases of the heuristic: 1.0 is read as a ratio (100%), 1.5 as a
      percentage (1.5%), negatives give 0; a negative allocation total gives 0. */
  lemma CoercionExamples()
    ensures Coerced(TimeInGc, 1.0) == 100.0
    ensures Coerced(TimeInGc, 1.5) == 1.5
    ensures Coerced(TimeInGc, 0.25) == 25.0
    ensures Coerced(TimeInGc, -3.0) == 0.0
    ensures Coerced(AllocatedBytes, -5.0) == 0.0
    ensures Coerced(AllocatedBytes, 12.75) == 12.0
    ensures Coerced(Gen0Size, -2.5) == -2.0
  {
  }

  /** The precondition `OnCounter` places on its value. */
  predicate Accepts(name: string, value: real) {
    CounterOf(name).Some? ==> Representable(CounterOf(name).value, value)
  }

  /** `OnCounter(name, value)`: a recognised name overwrites its own field with
      the coerced value and leaves every other field alone; any other name is
      ignored without error. */
  function OnCounter(s: AggregatorState, name: string, value: real): (s': AggregatorState)
    requires Accepts(name, value)
    ensures CounterOf(name).None? ==> s' == s
    ensures CounterOf(name).Some? ==>
      var c := CounterOf(name).value;
      && Field(s', c) == Coerced(c, value)
      && forall d: Counter :: d != c ==> Field(s', d) == Field(s, d)
  {
    match CounterOf(name)
    case None => s
    case Some(Gen0Size) => s.(gen0Size := Trunc(value))
    case Some(Gen1Size) => s.(gen1Size := Trunc(value))
    case Some(Gen2Size) => s.(gen2Size := Trunc(value))
    case Some(LohSize) => s.(lohSize := Trunc(value))
    case Some(PohSize) => s.(pohSize := Trunc(value))
    case Some(TimeInGc) =>
      var v := if value <= 1.0 then value * 100.0 else value;
      s.(timeInGcPercent := Clamp(v, 0.0, 100.0))
    case Some(AllocatedBytes) => s.(allocatedBytes := Trunc(if value < 0.0 then 0.0 else value))
  }

  /** Last write wins: a second write to the same counter erases the first. */
  lemma LastWriteWins(s: AggregatorState, name: string, v1: real, v2: real)
    requires Accepts(name, v1) && Accepts(name, v2)
    ensures OnCounter(OnCounter(s, name, v1), name, v2) == OnCounter(s, name, v2)
  {
    var a := OnCounter(OnCounter(s, name, v1), name, v2);
    var b := OnCounter(s, name, v2);
    if CounterOf(name).Some? {
      var c := CounterOf(name).value;
      forall d: Counter ensures Field(a, d) == Field(b, d) {
        if d != c {
          assert Field(a, d) == Field(OnCounter(s, name, v1), d) == Field(s, d);
        }
      }
      FieldsDetermineState(a, b);
    }
  }

  /** Writes to different counters commute. */
  lemma DistinctCountersCommute(s: AggregatorState, n1: string, v1: real, n2: string, v2: real)
    requires Accepts(n1, v1) && Accepts(n2, v2)
    requires CounterOf(n1) != CounterOf(n2)
    ensures OnCounter(OnCounter(s, n1, v1), n2, v2) == OnCounter(OnCounter(s, n2, v2), n1, v1)
  {
    var a := OnCounter(OnCounter(s, n1, v1), n2, v2);
    var b := OnCounter(OnCounter(s, n2, v2), n1, v1);
    forall d: Counter ensures Field(a, d) == Field(b, d) {
    }
    FieldsDetermineState(a, b);
  }

  /** The time-in-GC field always holds a percentage. */
  predicate Valid(s: AggregatorState) {
    0.0 <= s.timeInGcPercent <= 100.0
  }

  lemma OnCounterPreservesValid(s: AggregatorState, name: string, value: real)
    requires Valid(s) && Accepts(name, value)
    ensures Valid(Initial)
    ensures Valid(OnCounter(s, name, value))
  {
    if CounterOf(name) != Some(TimeInGc) {
      assert Field(OnCounter(s, name, value), TimeInGc) == Field(s, TimeInGc);
    }
  }

  /** The direct runtime query `Build` makes: collection counts per generation
      and the collector's memory info. */
  datatype GcQuery = GcQuery(
    gen0Collections: int32,
    gen1Collections: int32,
    gen2Collections: int32,
    totalCommittedBytes: int64,
    heapSizeBytes: int64,
    fragmentedBytes: int64)

  /** The size reported in a counter's slot of the heap breakdown. */
  function SlotSize(h: HeapBreakdown, c: Counter): int
    requires IsSizeCounter(c)
  {
    match c
    case Gen0Size => h.gen0.size.bytes
    case Gen1Size => h.gen1.size.bytes
    case Gen2Size => h.gen2.size.bytes
    case LohSize => h.loh.size.bytes
    case PohSize => h.poh.size.bytes
  }

  /** `Build()`: the counters' last values and a fresh runtime query projected
      into collector stats and a heap breakdown; the state is not changed. */
  function Build(s: AggregatorState, q: GcQuery): (r: (GcStats, HeapBreakdown))
    ensures forall c: Counter :: IsSizeCounter(c) ==> SlotSize(r.1, c) as real == Field(s, c)
    ensures && r.1.gen0.generation == Gen0 && r.1.gen1.generation == Gen1 && r.1.gen2.generation == Gen2
            && r.1.loh.kind == HeapKind.LOH && r.1.poh.kind == HeapKind.POH
    ensures && r.1.gen0.collections == r.0.gen0Collections == q.gen0Collections
            && r.1.gen1.collections == r.0.gen1Collections == q.gen1Collections
            && r.1.gen2.collections == r.0.gen2Collections == q.gen2Collections
    ensures r.0.totalAllocatedBytes as real == Field(s, AllocatedBytes)
    ensures Valid(s) ==> r.0.timeInGcPercent.value == Field(s, TimeInGc)
    ensures InRange(r.0.timeInGcPercent)
    ensures && r.0.totalCommitted.bytes == q.totalCommittedBytes
            && r.0.totalHeap.bytes == q.heapSizeBytes
            && r.0.fragmentedBytes.bytes == q.fragmentedBytes
  {
    var gen0 := GenerationStats(Gen0, ByteSize(s.gen0Size), q.gen0Collections, ByteSizes.Zero);
    var gen1 := GenerationStats(Gen1, ByteSize(s.gen1Size), q.gen1Collections, ByteSizes.Zero);
    var gen2 := GenerationStats(Gen2, ByteSize(s.gen2Size), q.gen2Collections, ByteSizes.Zero);
    var loh := SegmentStats(HeapKind.LOH, ByteSize(s.lohSize), ByteSizes.Zero);
    var poh := SegmentStats(HeapKind.POH, ByteSize(s.pohSize), ByteSizes.Zero);
    var heap := HeapBreakdown(gen0, gen1, gen2, loh, poh);
    var gc := GcStats(
      q.gen0Collections, q.gen1Collections, q.gen2Collections,
      s.allocatedBytes,
      Percents.Of(s.timeInGcPercent),
      ByteSize(q.totalCommittedBytes),
      ByteSize(q.heapSizeBytes),
      ByteSize(q.fragmentedBytes));
    (gc, heap)
  }

  /** With no counter ever received, every counter-derived output is zero. */
  lemma BuildBeforeAnyCounter(q: GcQuery)
    ensures var (gc, heap) := Build(Initial, q);
      && heap.gen0.size.bytes == 0 && heap.gen1.size.bytes == 0 && heap.gen2.size.bytes == 0
      && heap.loh.size.bytes == 0 && heap.poh.size.bytes == 0
      && gc.totalAllocatedBytes == 0 && gc.timeInGcPercent.value == 0.0
      && TotalCommitted(heap) == Ok(ByteSizes.Zero)
  {
    var (gc, heap) := Build(Initial, q);
    forall c: Counter | IsSizeCounter(c) ensures SlotSize(heap, c) == 0 {
      assert SlotSize(heap, c) as real == Field(Initial, c) == 0.0;
    }
    assert SlotSize(heap, Gen0Size) == 0 && SlotSize(heap, Gen1Size) == 0 && SlotSize(heap, Gen2Size) == 0;
    assert SlotSize(heap, LohSize) == 0 && SlotSize(heap, PohSize) == 0;
  }

  /** A size counter's update shows up in exactly its own slot of the next build. */
  lemma CounterReachesItsSlot(s: AggregatorState, c: Counter, value: real, q: GcQuery)
    requires IsSizeCounter(c) && Accepts(NameOf(c), value)
    ensures SlotSize(Build(OnCounter(s, NameOf(c), value), q).1, c) == Trunc(value)
    ensures forall d: Counter :: IsSizeCounter(d) && d != c ==>
      SlotSize(Build(OnCounter(s, NameOf(c), value), q).1, d) == SlotSize(Build(s, q).1, d)
  {
    NamesIdentifyCounters(c, NameOf(c));
    var s' := OnCounter(s, NameOf(c), value);
    assert SlotSize(Build(s', q).1, c) as real == Field(s', c) == Trunc(value) as real;
    forall d: Counter | IsSizeCounter(d) && d != c
      ensures SlotSize(Build(s', q).1, d) == SlotSize(Build(s, q).1, d)
    {
      assert SlotSize(Build(s', q).1, d) as real == Field(s', d) == Field(s, d) == SlotSize(Build(s, q).1, d) as real;
    }
  }
}

=== FILE: heap_breakdown.dfy ===
/** The managed heap split into the three small-object generations and the
    large- and pinned-object segments, with overflow-checked totals and
    percent-of-total shares. */
module HeapBreakdowns {
  import opened Numerics
  import opened ByteSizes
  import opened Percents
  import opened Records

  datatype HeapBreakdown = HeapBreakdown(
    gen0: GenerationStats,
    gen1: GenerationStats,
    gen2: GenerationStats,
    loh: SegmentStats,
    poh: SegmentStats)

  /** `Gen0.Size + Gen1.Size + Gen2.Size`, each `+` checked. */
  function SohTotal(h: HeapBreakdown): (r: Checked<ByteSize>)
    ensures var g0, g1, g2 := h.gen0.size.bytes, h.gen1.size.bytes, h.gen2.size.bytes;
      r.Ok? <==> InInt64(g0 + g1) && InInt64(g0 + g1 + g2)
    ensures r.Ok? ==> r.value.bytes == h.gen0.size.bytes + h.gen1.size.bytes + h.gen2.size.bytes
  {
    match Add(h.gen0.size, h.gen1.size)
    case Overflow => Overflow
    case Ok(s) => Add(s, h.gen2.size)
  }

  /** `SohTotal + Loh.Size + Poh.Size`, each `+` checked. */
  function TotalCommitted(h: HeapBreakdown): (r: Checked<ByteSize>)
    ensures var g0, g1, g2 := h.gen0.size.bytes, h.gen1.size.bytes, h.gen2.size.bytes;
      var l, p := h.loh.size.bytes, h.poh.size.bytes;
      r.Ok? <==> InInt64(g0 + g1) && InInt64(g0 + g1 + g2)
                 && InInt64(g0 + g1 + g2 + l) && InInt64(g0 + g1 + g2 + l + p)
    ensures r.Ok? ==> r.value.bytes == h.gen0.size.bytes + h.gen1.size.bytes + h.gen2.size.bytes
                                      + h.loh.size.bytes + h.poh.size.bytes
  {
    match SohTotal(h)
    case Overflow => Overflow
    case Ok(soh) =>
      match Add(soh, h.loh.size)
      case Overflow => Overflow
      case Ok(s) => Add(s, h.poh.size)
  }

  /** The share `part / total` as a percent, guarded against a zero total;
      the total is evaluated (and may overflow) before the part. */
  function ShareOfTotal(h: HeapBreakdown, part: Checked<ByteSize>): (r: Checked<Percent>)
    requires TotalCommitted(h).Ok? ==> part.Ok?
    ensures r.Ok? <==> TotalCommitted(h).Ok?
    ensures r.Ok? ==> InRange(r.value)
    ensures r.Ok? && TotalCommitted(h).value.bytes == 0 ==> r.value == Percents.Zero
    ensures r.Ok? && TotalCommitted(h).value.bytes != 0 ==>
      r.value == FromRatio(part.value.bytes as real / TotalCommitted(h).value.bytes as real)
  {
    match TotalCommitted(h)
    case Overflow => Overflow
    case Ok(total) =>
      if total.bytes == 0 then Ok(Percents.Zero)
      else Ok(FromRatio(part.value.bytes as real / total.bytes as real))
  }

  function SohPercentOfTotal(h: HeapBreakdown): (r: Checked<Percent>)
    ensures r.Ok? <==> TotalCommitted(h).Ok?
    ensures r.Ok? ==> InRange(r.value)
  {
    ShareOfTotal(h, SohTotal(h))
  }

  function LohPercentOfTotal(h: HeapBreakdown): (r: Checked<Percent>)
    ensures r.Ok? <==> TotalCommitted(h).Ok?
    ensures r.Ok? ==> InRange(r.value)
  {
    ShareOfTotal(h, Ok(h.loh.size))
  }

  function PohPercentOfTotal(h: HeapBreakdown): (r: Checked<Percent>)
    ensures r.Ok? <==> TotalCommitted(h).Ok?
    ensures r.Ok? ==> InRange(r.value)
  {
    ShareOfTotal(h, Ok(h.poh.size))
  }

  /** A zero total gives 0% for all three shares without dividing, even when
      the components are non-zero and cancel out. */
  lemma ZeroTotalGivesZeroShares(h: HeapBreakdown)
    requires TotalCommitted(h) == Ok(ByteSizes.Zero)
    ensures SohPercentOfTotal(h) == Ok(Percents.Zero)
    ensures LohPercentOfTotal(h) == Ok(Percents.Zero)
    ensures PohPercentOfTotal(h) == Ok(Percents.Zero)
  {
  }

  /** Components that cancel out still take the zero-total branch. */
  lemma CancellingComponentsGiveZeroShares()
    ensures var z := ByteSizes.Zero;
      var h := HeapBreakdown(
        GenerationStats(Enums.Gen0, ByteSize(500), 0, z),
        GenerationStats(Enums.Gen1, ByteSize(-500), 0, z),
        GenerationStats(Enums.Gen2, z, 0, z),
        SegmentStats(Enums.HeapKind.LOH, ByteSize(7), z),
        SegmentStats(Enums.HeapKind.POH, ByteSize(-7), z));
      && SohPercentOfTotal(h) == Ok(Percents.Zero)
      && LohPercentOfTotal(h) == Ok(Percents.Zero)
      && PohPercentOfTotal(h) == Ok(Percents.Zero)
  {
  }

  predicate NonNegativeSizes(h: HeapBreakdown) {
    && h.gen0.size.bytes >= 0 && h.gen1.size.bytes >= 0 && h.gen2.size.bytes >= 0
    && h.loh.size.bytes >= 0 && h.poh.size.bytes >= 0
  }

  lemma RatioOfSum(a: real, b: real, c: real, t: real)
    requires t > 0.0 && a + b + c == t
    ensures a / t + b / t + c / t == 1.0
  {
    assert a / t + b / t + c / t == (a + b + c) / t;
  }

  lemma RatioInUnit(a: real, t: real)
    requires t > 0.0 && 0.0 <= a <= t
    ensures 0.0 <= a / t <= 1.0
  {
    assert a / t * t == a;
  }

  /** With no negative component and a positive total, the three shares add up
      to exactly 100 (in exact arithmetic; the source rounds doubles). */
  lemma SharesSumTo100(h: HeapBreakdown)
    requires NonNegativeSizes(h)
    requires TotalCommitted(h).Ok? && TotalCommitted(h).value.bytes > 0
    ensures SohPercentOfTotal(h).value.value + LohPercentOfTotal(h).value.value
            + PohPercentOfTotal(h).value.value == 100.0
  {
    var t := TotalCommitted(h).value.bytes as real;
    var s := SohTotal(h).value.bytes as real;
    var l := h.loh.size.bytes as real;
    var p := h.poh.size.bytes as real;
    assert s + l + p == t;
    RatioInUnit(s, t);
    RatioInUnit(l, t);
    RatioInUnit(p, t);
    RatioOfSum(s, l, p, t);
    assert SohPercentOfTotal(h).value.value == s / t * 100.0;
    assert LohPercentOfTotal(h).value.value == l / t * 100.0;
    assert PohPercentOfTotal(h).value.value == p / t * 100.0;
  }

  predicate SameSizes(h: HeapBreakdown, k: HeapBreakdown) {
    && h.gen0.size == k.gen0.size && h.gen1.size == k.gen1.size && h.gen2.size == k.gen2.size
    && h.loh.size == k.loh.size && h.poh.size == k.poh.size
  }

  /** Only the `size` fields matter: generations, collection counts, deltas and
      segment kinds never affect the totals or the shares. */
  lemma OnlySizesMatter(h: HeapBreakdown, k: HeapBreakdown)
    requires SameSizes(h, k)
    ensures SohTotal(h) == SohTotal(k)
    ensures TotalCommitted(h) == TotalCommitted(k)
    ensures SohPercentOfTotal(h) == SohPercentOfTotal(k)
    ensures LohPercentOfTotal(h) == LohPercentOfTotal(k)
    ensures PohPercentOfTotal(h) == PohPercentOfTotal(k)
  {
  }
}

=== FILE: memory_allocator.dfy ===
/** The demonstration allocator: byte buffers kept alive by a list, pinned
    buffers held by handles, and a flag tracking a runtime no-GC region. A
    buffer is represented by its length and a pinning handle by the position
    of the buffer it pins. */
module MemoryAllocator {
  import opened Numerics
  import opened ByteSizes
  import PlacementAdvisor

  datatype Allocator = Allocator(buffers: seq<int32>, pinned: seq<nat>, noGcRegion: bool)

  /** A freshly constructed allocator. */
  const Empty: Allocator := Allocator([], [], false)

  /** The large-object threshold as a byte count. */
  const Threshold: int := PlacementAdvisor.LohThreshold.bytes

  /** The small-object buffer length: the request clamped to [1, int.MaxValue]. */
  function SohLength(size: ByteSize): (n: int32)
    ensures 1 <= n
    ensures 1 <= size.bytes <= MaxInt32 ==> n == size.bytes
    ensures size.bytes < 1 ==> n == 1
    ensures size.bytes > MaxInt32 ==> n == MaxInt32
  {
    Max(1, Min(MaxInt32, size.bytes))
  }

  /** The large (and pinned) buffer length: the request raised to the
      large-object threshold and capped at int.MaxValue. */
  function LohLength(size: ByteSize): (n: int32)
    ensures Threshold <= n
    ensures Threshold <= size.bytes <= MaxInt32 ==> n == size.bytes
    ensures size.bytes < Threshold ==> n == Threshold
    ensures size.bytes > MaxInt32 ==> n == MaxInt32
  {
    Min(MaxInt32, Max(Threshold, size.bytes))
  }

  /** The two coercions agree on requests at or above the threshold; below
      it the large variant always allocates more. */
  lemma LengthsAgreeAboveThreshold(size: ByteSize)
    ensures size.bytes >= Threshold ==> LohLength(size) == SohLength(size)
    ensures size.bytes < Threshold ==> LohLength(size) > SohLength(size)
  {
  }

  /** Every pinning handle refers to a distinct live buffer of at least the
      threshold length. */
  predicate Valid(a: Allocator) {
    && (forall i :: 0 <= i < |a.pinned| ==> a.pinned[i] < |a.buffers| && a.buffers[a.pinned[i]] >= Threshold)
    && (forall i, j :: 0 <= i < j < |a.pinned| ==> a.pinned[i] != a.pinned[j])
  }

  /** The bytes the allocator keeps alive. */
  function Retained(buffers: seq<int32>): int {
    if |buffers| == 0 then 0 else Retained(buffers[..|buffers| - 1]) + buffers[|buffers| - 1]
  }

  /** `AllocateSOH`: one more unpinned buffer of the clamped length. */
  function AllocateSoh(a: Allocator, size: ByteSize): (r: Allocator)
    ensures r.buffers == a.buffers + [SohLength(size)]
    ensures r.pinned == a.pinned && r.noGcRegion == a.noGcRegion
    ensures Valid(a) ==> Valid(r)
    ensures Retained(r.buffers) == Retained(a.buffers) + SohLength(size)
  {
    assert (a.buffers + [SohLength(size)])[..|a.buffers|] == a.buffers;
    a.(buffers := a.buffers + [SohLength(size)])
  }

  /** `AllocateLOH`: one more unpinned buffer of at least the threshold length. */
  function AllocateLoh(a: Allocator, size: ByteSize): (r: Allocator)
    ensures r.buffers == a.buffers + [LohLength(size)]
    ensures r.pinned == a.pinned && r.noGcRegion == a.noGcRegion
    ensures Valid(a) ==> Valid(r)
    ensures Retained(r.buffers) == Retained(a.buffers) + LohLength(size)
  {
    assert (a.buffers + [LohLength(size)])[..|a.buffers|] == a.buffers;
    a.(buffers := a.buffers + [LohLength(size)])
  }

  /** `AllocatePOH`: a buffer of the large length, pinned by a new handle. */
  function AllocatePoh(a: Allocator, size: ByteSize): (r: Allocator)
    ensures r.buffers == a.buffers + [LohLength(size)]
    ensures r.pinned == a.pinned + [|a.buffers|]
    ensures r.noGcRegion == a.noGcRegion
    ensures Valid(a) ==> Valid(r)
    ensures Retained(r.buffers) == Retained(a.buffers) + LohLength(size)
  {
    var r := Allocator(a.buffers + [LohLength(size)], a.pinned + [|a.buffers|], a.noGcRegion);
    assert r.buffers[..|a.buffers|] == a.buffers;
    assert Valid(a) ==> Valid(r) by {
      if Valid(a) {
        forall i | 0 <= i < |r.pinned|
          ensures r.pinned[i] < |r.buffers| && r.buffers[r.pinned[i]] >= Threshold
        {
          if i < |a.pinned| {
            assert r.pinned[i] == a.pinned[i] && r.buffers[a.pinned[i]] == a.buffers[a.pinned[i]];
          }
        }
      }
    }
    r
  }

  /** `ReleaseAll`: every handle freed and every buffer dropped; the no-GC
      region flag is left alone. */
  function ReleaseAll(a: Allocator): (r: Allocator)
    ensures r.buffers == [] && r.pinned == [] && Retained(r.buffers) == 0
    ensures r.noGcRegion == a.noGcRegion
    ensures Valid(r)
  {
    Allocator([], [], a.noGcRegion)
  }

  /** `Dispose` releases everything, and can be repeated. */
  lemma DisposeIsIdempotent(a: Allocator)
    ensures ReleaseAll(ReleaseAll(a)) == ReleaseAll(a)
    ensures ReleaseAll(AllocatePoh(a, ByteSize(1))) == ReleaseAll(a)
  {
  }

  /** How a runtime call ended: with a result, or with an exception. */
  datatype RuntimeOutcome = Returned(result: bool) | Threw

  /** The outcome of `TryStartNoGcRegion`: the new allocator, the method's
      result, and the size the runtime was asked for, if it was asked. */
  datatype StartResult = StartResult(allocator: Allocator, started: bool, runtimeRequest: Option<int64>)

  /** `TryStartNoGcRegion`: an active region answers true without asking the
      runtime; otherwise the runtime decides, an exception counting as
      false, and the flag records exactly a true answer. */
  function TryStartNoGcRegion(a: Allocator, totalSize: ByteSize, runtime: RuntimeOutcome): (r: StartResult)
    ensures r.allocator.buffers == a.buffers && r.allocator.pinned == a.pinned
    ensures r.allocator.noGcRegion <==> a.noGcRegion || runtime == Returned(true)
    ensures a.noGcRegion ==> r.started && r.runtimeRequest.None?
    ensures !a.noGcRegion ==> r.runtimeRequest == Some(totalSize.bytes) && (r.started <==> runtime == Returned(true))
  {
    if a.noGcRegion then StartResult(a, true, None)
    else
      match runtime
      case Returned(true) => StartResult(a.(noGcRegion := true), true, Some(totalSize.bytes))
      case Returned(false) => StartResult(a, false, Some(totalSize.bytes))
      case Threw => StartResult(a, false, Some(totalSize.bytes))
  }

  /** The outcome of `EndNoGcRegion`: the new allocator, whether the runtime
      was called, and whether its exception reached the caller. */
  datatype EndResult = EndResult(allocator: Allocator, runtimeCalled: bool, propagated: bool)

  /** `EndNoGcRegion`: nothing happens without an active region; otherwise the
      runtime is asked to end it and the flag is cleared whether or not that
      throws, the exception then propagating. */
  function EndNoGcRegion(a: Allocator, runtimeThrows: bool): (r: EndResult)
    ensures !r.allocator.noGcRegion
    ensures r.allocator.buffers == a.buffers && r.allocator.pinned == a.pinned
    ensures r.runtimeCalled <==> a.noGcRegion
    ensures r.propagated <==> a.noGcRegion && runtimeThrows
  {
    if !a.noGcRegion then EndResult(a, false, false)
    else EndResult(a.(noGcRegion := false), true, runtimeThrows)
  }

  /** The method's answer always matches the flag it leaves behind. */
  lemma StartedMatchesFlag(a: Allocator, totalSize: ByteSize, runtime: RuntimeOutcome)
    ensures TryStartNoGcRegion(a, totalSize, runtime).started
        <==> TryStartNoGcRegion(a, totalSize, runtime).allocator.noGcRegion
  {
  }

  /** A started region ended cleanly leaves the allocator as it was, and a
      second start or end in a row never reaches the runtime. */
  lemma RegionLifecycle(a: Allocator, size: ByteSize, size2: ByteSize, runtime: RuntimeOutcome, throws: bool)
    requires !a.noGcRegion
    ensures var s := TryStartNoGcRegion(a, size, Returned(true));
      EndNoGcRegion(s.allocator, false) == EndResult(a, true, false)
    ensures var s := TryStartNoGcRegion(a, size, Returned(true));
      TryStartNoGcRegion(s.allocator, size2, runtime) == StartResult(s.allocator, true, None)
    ensures var e := EndNoGcRegion(a.(noGcRegion := true), throws);
      EndNoGcRegion(e.allocator, throws) == EndResult(e.allocator, false, false)
  {
  }

  /** The operations a caller can issue. */
  datatype Op =
    | Soh(size: ByteSize)
    | Loh(size: ByteSize)
    | Poh(size: ByteSize)
    | Release
    | StartRegion(size: ByteSize, runtime: RuntimeOutcome)
    | EndRegion(runtimeThrows: bool)

  function Step(a: Allocator, op: Op): Allocator {
    match op
    case Soh(size) => AllocateSoh(a, size)
    case Loh(size) => AllocateLoh(a, size)
    case Poh(size) => AllocatePoh(a, size)
    case Release => ReleaseAll(a)
    case StartRegion(size, runtime) => TryStartNoGcRegion(a, size, runtime).allocator
    case EndRegion(throws) => EndNoGcRegion(a, throws).allocator
  }

  function Run(a: Allocator, ops: seq<Op>): Allocator
    decreases |ops|
  {
    if |ops| == 0 then a else Run(Step(a, ops[0]), ops[1..])
  }

  /** The handle invariant holds from construction through any sequence of
      operations. */
  lemma {:induction false} RunPreservesValid(a: Allocator, ops: seq<Op>)
    requires Valid(a)
    ensures Valid(Run(a, ops))
    decreases |ops|
  {
    if |ops| > 0 {
      assert Valid(Step(a, ops[0]));
      RunPreservesValid(Step(a, ops[0]), ops[1..]);
    }
  }
}

=== FILE: memory_service.dfy ===
/** The sampling service: each tick builds a snapshot from the aggregator and
    the process reader, records it as the latest value, and publishes it to
    the observers registered when the publication starts. */
module MemoryService {
  import opened Numerics
  import opened Records
  import opened HeapBreakdowns
  import opened ThreadsSnapshots
  import opened MemorySnapshots
  import opened Observers
  import Agg = GcMetricsAggregator

  /** The service before its first tick: no observers, no latest snapshot. */
  const Initial: Registry<MemorySnapshot> := Registry([], None)

  /** What one tick reads from outside: the aggregator's state with the
      runtime's collector query, the process reading, and the clock. */
  datatype Sample = Sample(
    aggregator: Agg.AggregatorState,
    query: Agg.GcQuery,
    process: ProcessMemory,
    now: Timestamp)

  /** The snapshot a tick builds: thread details are not collected, only the
      process's thread count. */
  function SnapshotOf(sample: Sample): (s: MemorySnapshot)
    ensures s.timestamp == sample.now && s.process == sample.process
    ensures (s.gc, s.heap) == Agg.Build(sample.aggregator, sample.query)
    ensures s.threads.totalThreads == sample.process.threadCount
    ensures s.threads.threads == [] && ReserveSum(s.threads.threads) == 0
  {
    var (gc, heap) := Agg.Build(sample.aggregator, sample.query);
    MemorySnapshot(sample.now, sample.process, gc, heap,
      ThreadsSnapshot(sample.process.threadCount, []))
  }

  /** One loop iteration: the latest snapshot is replaced before any observer
      hears of it, then each observer on the copied list gets it once, in
      order; observers that subscribe from a callback are replayed the new
      snapshot and are not notified by this tick. */
  function Tick(reg: Registry<MemorySnapshot>, sample: Sample, reactions: seq<seq<Reaction>>): (b: Broadcast<MemorySnapshot>)
    ensures b.registry.latest == Some(SnapshotOf(sample))
    ensures |b.notified| == |reg.observers|
    ensures forall i :: 0 <= i < |reg.observers| ==>
      b.notified[i] == Delivery(reg.observers[i], SnapshotOf(sample))
    ensures forall i :: 0 <= i < |b.replays| ==> b.replays[i].value == SnapshotOf(sample)
    ensures (forall i :: 0 <= i < |reactions| ==> reactions[i] == []) ==>
      b.registry.observers == reg.observers && b.replays == []
    ensures b.registry == Announce(reg, SnapshotOf(sample), reactions, None)
  {
    var snapshot := SnapshotOf(sample);
    FanOut(reg.(latest := Some(snapshot)), reg.observers, snapshot, reactions)
  }

  /** A tick whose loop is cut short because the callback of the observer at
      position `k` of the copied list throws: the latest value was already
      replaced, the observers up to `k` got the snapshot, later ones miss it. */
  function TickUntilThrow(reg: Registry<MemorySnapshot>, sample: Sample, reactions: seq<seq<Reaction>>, k: nat): (b: Broadcast<MemorySnapshot>)
    requires k < |reg.observers|
    ensures b.registry.latest == Some(SnapshotOf(sample))
    ensures |b.notified| == k + 1
    ensures b.notified == Tick(reg, sample, reactions).notified[..k + 1]
    ensures b.registry == Announce(reg, SnapshotOf(sample), reactions, Some(k))
  {
    var snapshot := SnapshotOf(sample);
    FanOutUntilThrow(reg.(latest := Some(snapshot)), reg.observers, snapshot, reactions, k)
  }

  /** A callback throws in a tick exactly when the given position is on the
      observer list the tick copies. */
  predicate Throws(reg: Registry<MemorySnapshot>, thrower: Option<nat>) {
    thrower.Some? && thrower.value < |reg.observers|
  }

  /** The reactions of tick `i`, none when absent. */
  function ReactionsAt(reactions: seq<seq<seq<Reaction>>>, i: nat): seq<seq<Reaction>> {
    if i < |reactions| then reactions[i] else []
  }

  /** The throwing position given for tick `i`, none when absent. */
  function ThrowerAt(throwsAt: seq<Option<nat>>, i: nat): Option<nat> {
    if i < |throwsAt| then throwsAt[i] else None
  }

  /** A tick's effect on the registry, given the snapshot it built: the
      snapshot becomes the latest value, then the copied list is notified, the
      loop being cut short at `thrower` when that position is on the list. */
  function Announce(reg: Registry<MemorySnapshot>, snapshot: MemorySnapshot, reactions: seq<seq<Reaction>>, thrower: Option<nat>): (r: Registry<MemorySnapshot>)
    ensures r.latest == Some(snapshot)
    ensures (forall i :: 0 <= i < |reactions| ==> reactions[i] == []) ==>
      r == reg.(latest := Some(snapshot))
  {
    var targets := if Throws(reg, thrower) then reg.observers[..thrower.value + 1] else reg.observers;
    FanOut(reg.(latest := Some(snapshot)), targets, snapshot, reactions).registry
  }

  /** Where the sampling loop stopped: the registry, how many ticks ran, and
      whether a callback's exception ended the loop. */
  datatype Served = Served(registry: Registry<MemorySnapshot>, ticks: nat, faulted: bool)

  /** The snapshots successive ticks build from their samples. */
  function Snapshots(samples: seq<Sample>): (s: seq<MemorySnapshot>)
    ensures |s| == |samples|
    ensures forall i :: 0 <= i < |samples| ==> s[i] == SnapshotOf(samples[i])
  {
    seq(|samples|, i requires 0 <= i < |samples| => SnapshotOf(samples[i]))
  }

  /** A tick's effect on the registry, as a value: the registry before the
      tick, the snapshot it built, its callbacks' reactions and its throwing
      position give the registry after it. The loop is stated over any such
      effect, so that its control flow is proved once, apart from what the
      notifications do; `Announce` is the effect the service has. */
  type TickEffect = (Registry<MemorySnapshot>, MemorySnapshot, seq<seq<Reaction>>, Option<nat>) -> Registry<MemorySnapshot>

  /** The effect leaves the tick's snapshot as the latest value. */
  ghost predicate SetsLatest(announce: TickEffect) {
    forall reg, snapshot, reactions, thrower :: announce(reg, snapshot, reactions, thrower).latest == Some(snapshot)
  }

  lemma AnnounceSetsLatest()
    ensures SetsLatest(Announce)
  {
    forall reg, snapshot, reactions, thrower
      ensures Announce(reg, snapshot, reactions, thrower).latest == Some(snapshot)
    {
    }
  }

  /** The sampling loop for a given tick effect. `throwsAt[j]`, when present
      and within the observer list, is the position whose callback throws in
      tick `j`; only cancellation is caught, so that exception ends the loop
      and no later tick runs. */
  function ServeBy(announce: TickEffect, reg: Registry<MemorySnapshot>, snapshots: seq<MemorySnapshot>, reactions: seq<seq<seq<Reaction>>>, throwsAt: seq<Option<nat>>): (r: Served)
    ensures r.ticks <= |snapshots|
    ensures !r.faulted ==> r.ticks == |snapshots|
    ensures r.faulted ==> 0 < r.ticks <= |throwsAt| && throwsAt[r.ticks - 1].Some?
    ensures r.ticks == 0 ==> r.registry == reg
    decreases |snapshots|
  {
    if |snapshots| == 0 then Served(reg, 0, false)
    else
      var now := if |reactions| > 0 then reactions[0] else [];
      var later := if |reactions| > 0 then reactions[1..] else [];
      var thrower := if |throwsAt| > 0 then throwsAt[0] else None;
      var rest := if |throwsAt| > 0 then throwsAt[1..] else [];
      if Throws(reg, thrower) then
        Served(announce(reg, snapshots[0], now, thrower), 1, true)
      else
        var s := ServeBy(announce, announce(reg, snapshots[0], now, None), snapshots[1..], later, rest);
        Served(s.registry, s.ticks + 1, s.faulted)
  }

  /** Ticks one after another for a given tick effect, none throwing. */
  function TicksBy(announce: TickEffect, reg: Registry<MemorySnapshot>, snapshots: seq<MemorySnapshot>, reactions: seq<seq<seq<Reaction>>>): Registry<MemorySnapshot>
    decreases |snapshots|
  {
    if |snapshots| == 0 then reg
    else
      var now := if |reactions| > 0 then reactions[0] else [];
      var later := if |reactions| > 0 then reactions[1..] else [];
      TicksBy(announce, announce(reg, snapshots[0], now, None), snapshots[1..], later)
  }

  /** The sampling loop of the service over the snapshots its ticks build
      (`Snapshots` of the samples). */
  function Serve(reg: Registry<MemorySnapshot>, snapshots: seq<MemorySnapshot>, reactions: seq<seq<seq<Reaction>>>, throwsAt: seq<Option<nat>>): (r: Served)
    ensures r.ticks <= |snapshots|
    ensures !r.faulted ==> r.ticks == |snapshots|
    ensures r.faulted ==> 0 < r.ticks <= |throwsAt| && throwsAt[r.ticks - 1].Some?
    ensures r.ticks == 0 ==> r.registry == reg
  {
    ServeBy(Announce, reg, snapshots, reactions, throwsAt)
  }

  /** Ticks of the service one after another, each with its own callbacks'
      reactions and none throwing. */
  function Ticks(reg: Registry<MemorySnapshot>, snapshots: seq<MemorySnapshot>, reactions: seq<seq<seq<Reaction>>>): Registry<MemorySnapshot> {
    TicksBy(Announce, reg, snapshots, reactions)
  }

  /** The service's loop is the loop for its own tick effect. */
  lemma ServeIsServeBy(reg: Registry<MemorySnapshot>, snapshots: seq<MemorySnapshot>, reactions: seq<seq<seq<Reaction>>>, throwsAt: seq<Option<nat>>)
    ensures Serve(reg, snapshots, reactions, throwsAt) == ServeBy(Announce, reg, snapshots, reactions, throwsAt)
  {
  }

  lemma TicksAreTicksBy(reg: Registry<MemorySnapshot>, snapshots: seq<MemorySnapshot>, reactions: seq<seq<seq<Reaction>>>)
    ensures Ticks(reg, snapshots, reactions) == TicksBy(Announce, reg, snapshots, reactions)
    ensures forall i :: 0 <= i <= |snapshots| ==>
      Ticks(reg, snapshots[..i], reactions) == TicksBy(Announce, reg, snapshots[..i], reactions)
  {
  }

  lemma {:induction false} ServeByEndsOnLastTick(announce: TickEffect, reg: Registry<MemorySnapshot>, snapshots: seq<MemorySnapshot>, reactions: seq<seq<seq<Reaction>>>, throwsAt: seq<Option<nat>>)
    requires SetsLatest(announce)
    ensures var r := ServeBy(announce, reg, snapshots, reactions, throwsAt);
      r.ticks > 0 ==> r.registry.latest == Some(snapshots[r.ticks - 1])
    decreases |snapshots|
  {
    if |snapshots| > 0 {
      var now := if |reactions| > 0 then reactions[0] else [];
      var later := if |reactions| > 0 then reactions[1..] else [];
      var thrower := if |throwsAt| > 0 then throwsAt[0] else None;
      var rest := if |throwsAt| > 0 then throwsAt[1..] else [];
      if Throws(reg, thrower) {
        assert announce(reg, snapshots[0], now, thrower).latest == Some(snapshots[0]);
      } else {
        var next := announce(reg, snapshots[0], now, None);
        assert next.latest == Some(snapshots[0]);
        ServeByEndsOnLastTick(announce, next, snapshots[1..], later, rest);
        var s := ServeBy(announce, next, snapshots[1..], later, rest);
        assert ServeBy(announce, reg, snapshots, reactions, throwsAt) == Served(s.registry, s.ticks + 1, s.faulted);
        if s.ticks > 0 {
          assert snapshots[1..][s.ticks - 1] == snapshots[s.ticks];
        }
      }
    }
  }

  /** Wherever the loop stopped, the latest value is the snapshot of the last
      tick that ran. */
  lemma ServeEndsOnLastTick(reg: Registry<MemorySnapshot>, snapshots: seq<MemorySnapshot>, reactions: seq<seq<seq<Reaction>>>, throwsAt: seq<Option<nat>>)
    ensures var r := Serve(reg, snapshots, reactions, throwsAt);
      r.ticks > 0 ==> r.registry.latest == Some(snapshots[r.ticks - 1])
  {
    ServeIsServeBy(reg, snapshots, reactions, throwsAt);
    AnnounceSetsLatest();
    ServeByEndsOnLastTick(Announce, reg, snapshots, reactions, throwsAt);
  }

  lemma {:induction false} TicksByEndOnLastSnapshot(announce: TickEffect, reg: Registry<MemorySnapshot>, snapshots: seq<MemorySnapshot>, reactions: seq<seq<seq<Reaction>>>)
    requires SetsLatest(announce) && |snapshots| > 0
    ensures TicksBy(announce, reg, snapshots, reactions).latest == Some(snapshots[|snapshots| - 1])
    decreases |snapshots|
  {
    var now := if |reactions| > 0 then reactions[0] else [];
    var later := if |reactions| > 0 then reactions[1..] else [];
    var next := announce(reg, snapshots[0], now, None);
    if |snapshots| > 1 {
      TicksByEndOnLastSnapshot(announce, next, snapshots[1..], later);
      assert snapshots[1..][|snapshots[1..]| - 1] == snapshots[|snapshots| - 1];
    } else {
      assert TicksBy(announce, next, snapshots[1..], later) == next;
      assert next.latest == Some(snapshots[0]);
    }
  }

  /** After any non-empty run of ticks, the latest value is the last tick's
      snapshot, whatever the observers did meanwhile. */
  lemma LatestIsLastTick(reg: Registry<MemorySnapshot>, samples: seq<Sample>, reactions: seq<seq<seq<Reaction>>>)
    requires |samples| > 0
    ensures Ticks(reg, Snapshots(samples), reactions).latest == Some(SnapshotOf(samples[|samples| - 1]))
  {
    LatestIsLastSnapshot(reg, Snapshots(samples), reactions);
  }

  lemma LatestIsLastSnapshot(reg: Registry<MemorySnapshot>, snapshots: seq<MemorySnapshot>, reactions: seq<seq<seq<Reaction>>>)
    requires |snapshots| > 0
    ensures Ticks(reg, snapshots, reactions).latest == Some(snapshots[|snapshots| - 1])
  {
    TicksAreTicksBy(reg, snapshots, reactions);
    AnnounceSetsLatest();
    TicksByEndOnLastSnapshot(Announce, reg, snapshots, reactions);
  }

  /** Tick `i` of the loop is tick `i - 1` of the loop that starts after the
      first full tick. */
  lemma ShiftOneTick(announce: TickEffect, reg: Registry<MemorySnapshot>, snapshots: seq<MemorySnapshot>, reactions: seq<seq<seq<Reaction>>>, throwsAt: seq<Option<nat>>, i: nat)
    requires 0 < i <= |snapshots|
    ensures var later := if |reactions| > 0 then reactions[1..] else [];
      && TicksBy(announce, reg, snapshots[..i], reactions)
           == TicksBy(announce, announce(reg, snapshots[0], ReactionsAt(reactions, 0), None), snapshots[1..][..i - 1], later)
      && ReactionsAt(reactions, i) == ReactionsAt(later, i - 1)
    ensures ThrowerAt(throwsAt, i) == ThrowerAt(if |throwsAt| > 0 then throwsAt[1..] else [], i - 1)
    ensures i < |snapshots| ==> snapshots[i] == snapshots[1..][i - 1]
  {
    assert snapshots[..i][0] == snapshots[0];
    assert snapshots[..i][1..] == snapshots[1..][..i - 1];
  }

  lemma {:induction false} ServeByEarlierTicksRanInFull(announce: TickEffect, reg: Registry<MemorySnapshot>, snapshots: seq<MemorySnapshot>, reactions: seq<seq<seq<Reaction>>>, throwsAt: seq<Option<nat>>)
    ensures var r := ServeBy(announce, reg, snapshots, reactions, throwsAt);
      forall i :: 0 <= i < r.ticks && !(r.faulted && i == r.ticks - 1) ==>
        !Throws(TicksBy(announce, reg, snapshots[..i], reactions), ThrowerAt(throwsAt, i))
    decreases |snapshots|
  {
    if |snapshots| > 0 {
      var now := if |reactions| > 0 then reactions[0] else [];
      var later := if |reactions| > 0 then reactions[1..] else [];
      var thrower := if |throwsAt| > 0 then throwsAt[0] else None;
      var rest := if |throwsAt| > 0 then throwsAt[1..] else [];
      if !Throws(reg, thrower) {
        var next := announce(reg, snapshots[0], now, None);
        ServeByEarlierTicksRanInFull(announce, next, snapshots[1..], later, rest);
        var s := ServeBy(announce, next, snapshots[1..], later, rest);
        var r := ServeBy(announce, reg, snapshots, reactions, throwsAt);
        assert r == Served(s.registry, s.ticks + 1, s.faulted);
        forall i | 0 <= i < r.ticks && !(r.faulted && i == r.ticks - 1)
          ensures !Throws(TicksBy(announce, reg, snapshots[..i], reactions), ThrowerAt(throwsAt, i))
        {
          if i == 0 {
            assert snapshots[..0] == [];
          } else {
            ShiftOneTick(announce, reg, snapshots, reactions, throwsAt, i);
          }
        }
      }
    }
  }

  /** The loop stops at the first throwing tick: every tick before the last
      one that ran had no throwing position on its observer list. */
  lemma ServeEarlierTicksRanInFull(reg: Registry<MemorySnapshot>, snapshots: seq<MemorySnapshot>, reactions: seq<seq<seq<Reaction>>>, throwsAt: seq<Option<nat>>)
    ensures var r := Serve(reg, snapshots, reactions, throwsAt);
      forall i :: 0 <= i < r.ticks && !(r.faulted && i == r.ticks - 1) ==>
        !Throws(Ticks(reg, snapshots[..i], reactions), ThrowerAt(throwsAt, i))
  {
    ServeIsServeBy(reg, snapshots, reactions, throwsAt);
    TicksAreTicksBy(reg, snapshots, reactions);
    ServeByEarlierTicksRanInFull(Announce, reg, snapshots, reactions, throwsAt);
  }

  lemma {:induction false} ServeByFaultIsAThrow(announce: TickEffect, reg: Registry<MemorySnapshot>, snapshots: seq<MemorySnapshot>, reactions: seq<seq<seq<Reaction>>>, throwsAt: seq<Option<nat>>)
    ensures var r := ServeBy(announce, reg, snapshots, reactions, throwsAt);
      r.faulted ==> Throws(TicksBy(announce, reg, snapshots[..r.ticks - 1], reactions), ThrowerAt(throwsAt, r.ticks - 1))
    decreases |snapshots|
  {
    if |snapshots| > 0 {
      var now := if |reactions| > 0 then reactions[0] else [];
      var later := if |reactions| > 0 then reactions[1..] else [];
      var thrower := if |throwsAt| > 0 then throwsAt[0] else None;
      var rest := if |throwsAt| > 0 then throwsAt[1..] else [];
      if Throws(reg, thrower) {
        assert snapshots[..0] == [];
      } else {
        var next := announce(reg, snapshots[0], now, None);
        ServeByFaultIsAThrow(announce, next, snapshots[1..], later, rest);
        var s := ServeBy(announce, next, snapshots[1..], later, rest);
        assert ServeBy(announce, reg, snapshots, reactions, throwsAt) == Served(s.registry, s.ticks + 1, s.faulted);
        if s.faulted {
          ShiftOneTick(announce, reg, snapshots, reactions, throwsAt, s.ticks);
        }
      }
    }
  }

  /** A loop that faulted stopped at a tick whose throwing position was on that
      tick's observer list, the earlier ticks having run in full. */
  lemma ServeFaultIsAThrow(reg: Registry<MemorySnapshot>, snapshots: seq<MemorySnapshot>, reactions: seq<seq<seq<Reaction>>>, throwsAt: seq<Option<nat>>)
    ensures var r := Serve(reg, snapshots, reactions, throwsAt);
      r.faulted ==> Throws(Ticks(reg, snapshots[..r.ticks - 1], reactions), ThrowerAt(throwsAt, r.ticks - 1))
  {
    ServeIsServeBy(reg, snapshots, reactions, throwsAt);
    TicksAreTicksBy(reg, snapshots, reactions);
    ServeByFaultIsAThrow(Announce, reg, snapshots, reactions, throwsAt);
  }

  lemma {:induction false} ServeByFaultRegistry(announce: TickEffect, reg: Registry<MemorySnapshot>, snapshots: seq<MemorySnapshot>, reactions: seq<seq<seq<Reaction>>>, throwsAt: seq<Option<nat>>)
    ensures var r := ServeBy(announce, reg, snapshots, reactions, throwsAt);
      r.faulted ==>
        var j := r.ticks - 1;
        r.registry == announce(TicksBy(announce, reg, snapshots[..j], reactions), snapshots[j], ReactionsAt(reactions, j), ThrowerAt(throwsAt, j))
    decreases |snapshots|
  {
    if |snapshots| > 0 {
      var now := if |reactions| > 0 then reactions[0] else [];
      var later := if |reactions| > 0 then reactions[1..] else [];
      var thrower := if |throwsAt| > 0 then throwsAt[0] else None;
      var rest := if |throwsAt| > 0 then throwsAt[1..] else [];
      var r := ServeBy(announce, reg, snapshots, reactions, throwsAt);
      if Throws(reg, thrower) {
        assert r == Served(announce(reg, snapshots[0], now, thrower), 1, true);
        assert TicksBy(announce, reg, snapshots[..0], reactions) == reg by {
          assert snapshots[..0] == [];
        }
        assert ThrowerAt(throwsAt, 0) == thrower && ReactionsAt(reactions, 0) == now;
      } else {
        var next := announce(reg, snapshots[0], now, None);
        var s := ServeBy(announce, next, snapshots[1..], later, rest);
        assert r == Served(s.registry, s.ticks + 1, s.faulted);
        if s.faulted {
          var j := s.ticks;
          ServeByFaultRegistry(announce, next, snapshots[1..], later, rest);
          ShiftOneTick(announce, reg, snapshots, reactions, throwsAt, j);
        }
      }
    }
  }

  /** A loop that faulted ends with the registry of its stopping tick cut
      short at the throwing position, after the earlier ticks ran in full. */
  lemma ServeFaultRegistry(reg: Registry<MemorySnapshot>, snapshots: seq<MemorySnapshot>, reactions: seq<seq<seq<Reaction>>>, throwsAt: seq<Option<nat>>)
    ensures var r := Serve(reg, snapshots, reactions, throwsAt);
      r.faulted ==>
        var j := r.ticks - 1;
        r.registry == Announce(Ticks(reg, snapshots[..j], reactions), snapshots[j], ReactionsAt(reactions, j), ThrowerAt(throwsAt, j))
  {
    ServeIsServeBy(reg, snapshots, reactions, throwsAt);
    TicksAreTicksBy(reg, snapshots, reactions);
    ServeByFaultRegistry(Announce, reg, snapshots, reactions, throwsAt);
  }

  lemma {:induction false} ServeByUnfaultedIsTicks(announce: TickEffect, reg: Registry<MemorySnapshot>, snapshots: seq<MemorySnapshot>, reactions: seq<seq<seq<Reaction>>>, throwsAt: seq<Option<nat>>)
    ensures !ServeBy(announce, reg, snapshots, reactions, throwsAt).faulted ==>
      ServeBy(announce, reg, snapshots, reactions, throwsAt).registry == TicksBy(announce, reg, snapshots, reactions)
    decreases |snapshots|
  {
    if |snapshots| > 0 {
      var now := if |reactions| > 0 then reactions[0] else [];
      var later := if |reactions| > 0 then reactions[1..] else [];
      var thrower := if |throwsAt| > 0 then throwsAt[0] else None;
      var rest := if |throwsAt| > 0 then throwsAt[1..] else [];
      if !Throws(reg, thrower) {
        ServeByUnfaultedIsTicks(announce, announce(reg, snapshots[0], now, None), snapshots[1..], later, rest);
      }
    }
  }

  /** A loop that did not fault is the plain run of all its ticks. */
  lemma ServeUnfaultedIsTicks(reg: Registry<MemorySnapshot>, snapshots: seq<MemorySnapshot>, reactions: seq<seq<seq<Reaction>>>, throwsAt: seq<Option<nat>>)
    ensures !Serve(reg, snapshots, reactions, throwsAt).faulted ==>
      Serve(reg, snapshots, reactions, throwsAt).registry == Ticks(reg, snapshots, reactions)
  {
    ServeIsServeBy(reg, snapshots, reactions, throwsAt);
    TicksAreTicksBy(reg, snapshots, reactions);
    ServeByUnfaultedIsTicks(Announce, reg, snapshots, reactions, throwsAt);
  }

  /** A callback throwing in the very first tick stops the loop after it. */
  lemma FirstTickThrowStops(reg: Registry<MemorySnapshot>, snapshots: seq<MemorySnapshot>, reactions: seq<seq<seq<Reaction>>>, throwsAt: seq<Option<nat>>)
    requires |snapshots| > 0 && Throws(reg, ThrowerAt(throwsAt, 0))
    ensures Serve(reg, snapshots, reactions, throwsAt).faulted
    ensures Serve(reg, snapshots, reactions, throwsAt).ticks == 1
  {
  }

  /** With no throwing position given, the loop does not fault. */
  lemma {:induction false} ServeWithoutThrowsCompletes(reg: Registry<MemorySnapshot>, snapshots: seq<MemorySnapshot>, reactions: seq<seq<seq<Reaction>>>, throwsAt: seq<Option<nat>>)
    requires forall j :: 0 <= j < |throwsAt| ==> throwsAt[j].None?
    ensures !Serve(reg, snapshots, reactions, throwsAt).faulted
    ensures Serve(reg, snapshots, reactions, throwsAt).registry == Ticks(reg, snapshots, reactions)
  {
    ServeUnfaultedIsTicks(reg, snapshots, reactions, throwsAt);
  }

  /** A tick cut short by a throwing callback still leaves its snapshot as the
      latest value, so an observer subscribing afterwards is replayed it. */
  lemma ThrowingTickStillSetsLatest(reg: Registry<MemorySnapshot>, sample: Sample, reactions: seq<seq<Reaction>>, k: nat, o: ObserverId)
    requires k < |reg.observers|
    ensures Subscribe(TickUntilThrow(reg, sample, reactions, k).registry, o).replays == [Delivery(o, SnapshotOf(sample))]
  {
  }

  /** An observer subscribing after a tick is replayed that tick's snapshot at
      once; one subscribing before any tick gets nothing until the first tick. */
  lemma LateSubscriberSeesLatest(reg: Registry<MemorySnapshot>, sample: Sample, o: ObserverId)
    ensures Subscribe(Initial, o).replays == []
    ensures Subscribe(Tick(reg, sample, []).registry, o).replays == [Delivery(o, SnapshotOf(sample))]
  {
  }

  /** An observer on the list when a tick starts is notified by it even when
      an earlier observer's callback disposes its subscription. */
  lemma DisposedDuringTickStillNotified(sample: Sample)
    ensures var b := Tick(Registry([1, 2], None), sample, [[Leave(2)]]);
      && b.notified == [Delivery(1, SnapshotOf(sample)), Delivery(2, SnapshotOf(sample))]
      && b.registry.observers == [1]
  {
    DisposedDuringFanOut(SnapshotOf(sample));
  }

  lemma DisposedDuringFanOut(v: MemorySnapshot)
    ensures var b := FanOut(Registry([1, 2], Some(v)), [1, 2], v, [[Leave(2)]]);
      && b.notified == [Delivery(1, v), Delivery(2, v)]
      && b.registry.observers == [1]
  {
    var start := Registry([1, 2], Some(v));
    var b := FanOut(start, [1, 2], v, [[Leave(2)]]);
    assert b.notified[0] == Delivery(1, v) && b.notified[1] == Delivery(2, v);
    assert RemoveFirst([1, 2], 2) == [1] by {
      assert [1, 2][1..] == [2];
    }
    assert [Leave(2)][1..] == [] && [1, 2][1..] == [2];
    var first := ReactAll(start, [Leave(2)]);
    assert first.registry == Unsubscribe(start, 2);
    assert b.registry == FanOut(first.registry, [2], v, []).registry;
  }
}

=== FILE: memory_snapshot.dfy ===
/** The immutable point-in-time composite built once per sampling tick. */
module MemorySnapshots {
  import opened Numerics
  import opened ByteSizes
  import opened Percents
  import opened Records
  import opened HeapBreakdowns
  import opened ThreadsSnapshots

  datatype MemorySnapshot = MemorySnapshot(
    timestamp: Timestamp,
    process: ProcessMemory,
    gc: GcStats,
    heap: HeapBreakdown,
    threads: ThreadsSnapshot)

  /** The managed committed size: the heap breakdown's checked five-part sum. */
  function TotalManagedCommitted(s: MemorySnapshot): (r: Checked<ByteSize>)
    ensures r == TotalCommitted(s.heap)
    ensures r.Ok? ==> r.value.bytes == s.heap.gen0.size.bytes + s.heap.gen1.size.bytes
                                      + s.heap.gen2.size.bytes + s.heap.loh.size.bytes
                                      + s.heap.poh.size.bytes
  {
    TotalCommitted(s.heap)
  }

  /** The collector-reported fragmented bytes, passed through. */
  function FragmentedBytes(s: MemorySnapshot): (r: ByteSize)
    ensures r == s.gc.fragmentedBytes
  {
    s.gc.fragmentedBytes
  }

  /** The derived values depend on the collector stats and the heap only:
      timestamp, process metrics and threads never change them. */
  lemma DerivedValuesIgnoreOtherParts(s: MemorySnapshot, t: Timestamp, p: ProcessMemory, th: ThreadsSnapshot)
    ensures TotalManagedCommitted(s.(timestamp := t, process := p, threads := th)) == TotalManagedCommitted(s)
    ensures FragmentedBytes(s.(timestamp := t, process := p, threads := th)) == FragmentedBytes(s)
  {
  }

  /** The managed total is not tied to the collector's own committed figure:
      a snapshot can carry a heap breakdown summing to 100 bytes while the
      collector reports 0 committed bytes. */
  lemma ManagedTotalIndependentOfGcTotal()
    ensures var z := ByteSizes.Zero;
      var heap := HeapBreakdown(
        GenerationStats(Enums.Gen0, ByteSize(100), 0, z),
        GenerationStats(Enums.Gen1, z, 0, z),
        GenerationStats(Enums.Gen2, z, 0, z),
        SegmentStats(Enums.HeapKind.LOH, z, z),
        SegmentStats(Enums.HeapKind.POH, z, z));
      var gc := GcStats(0, 0, 0, 0, Percents.Zero, z, z, z);
      var s := MemorySnapshot(Timestamp(0), ProcessMemory(z, z, z, 1), gc, heap, ThreadsSnapshot(1, []));
      TotalManagedCommitted(s) == Ok(ByteSize(100)) && s.gc.totalCommitted != TotalManagedCommitted(s).value
  {
  }
}

=== FILE: numerics.dfy ===
/** Machine integers, C# `checked` arithmetic, truncating casts and
    two's-complement wrap-around, stated over Dafny's unbounded `int` and `real`. */
module Numerics {

  const MinInt32: int := -0x8000_0000
  const MaxInt32: int := 0x7FFF_FFFF
  const MinInt64: int := -0x8000_0000_0000_0000
  const MaxInt64: int := 0x7FFF_FFFF_FFFF_FFFF
  const MaxUInt64: int := 0xFFFF_FFFF_FFFF_FFFF
  /** 2^64, the modulus of 64-bit wrap-around. */
  const Modulus64: int := 0x1_0000_0000_0000_0000

  type int32 = x: int | MinInt32 <= x <= MaxInt32
  type int64 = x: int | MinInt64 <= x <= MaxInt64
  type uint64 = x: int | 0 <= x <= MaxUInt64

  predicate InInt64(x: int) {
    MinInt64 <= x <= MaxInt64
  }

  datatype Option<+T> = None | Some(value: T)

  /** The outcome of a C# `checked` expression: its value, or an OverflowException. */
  datatype Checked<+T> = Ok(value: T) | Overflow

  function Min(a: int, b: int): int {
    if a <= b then a else b
  }

  function Max(a: int, b: int): int {
    if a >= b then a else b
  }

  /** `checked(a + b)` on two longs. */
  function CheckedAdd(a: int64, b: int64): (r: Checked<int64>)
    ensures r.Ok? <==> InInt64(a + b)
    ensures r.Ok? ==> r.value == a + b
  {
    var s := a + b;
    if MinInt64 <= s <= MaxInt64 then Ok(s) else Overflow
  }

  /** `checked(a - b)` on two longs. */
  function CheckedSub(a: int64, b: int64): (r: Checked<int64>)
    ensures r.Ok? <==> InInt64(a - b)
    ensures r.Ok? ==> r.value == a - b
  {
    var d := a - b;
    if MinInt64 <= d <= MaxInt64 then Ok(d) else Overflow
  }

  /** `checked(a * b)` on two longs. */
  function CheckedMul(a: int64, b: int64): (r: Checked<int64>)
    ensures r.Ok? <==> InInt64(a * b)
    ensures r.Ok? ==> r.value == a * b
  {
    var p := a * b;
    if MinInt64 <= p <= MaxInt64 then Ok(p) else Overflow
  }

  /** Truncation toward zero, the rounding of C#'s `(long)d` and `(ulong)d` casts. */
  function Trunc(x: real): (r: int)
    ensures x >= 0.0 ==> 0 <= r && r as real <= x < r as real + 1.0
    ensures x < 0.0 ==> r <= 0 && r as real - 1.0 < x <= r as real
  {
    if x >= 0.0 then x.Floor else -((-x).Floor)
  }

  /** Two's-complement wrap-around of an unbounded integer into a long,
      what unchecked C# arithmetic on longs produces. */
  function Wrap64(x: int): (r: int64)
    ensures (r - x) % Modulus64 == 0
  {
    var k := (x - MinInt64) / Modulus64;
    assert x - MinInt64 == k * Modulus64 + (x - MinInt64) % Modulus64;
    (x - MinInt64) % Modulus64 + MinInt64
  }

  /** Wrap-around leaves in-range values unchanged. */
  lemma WrapInRange(x: int)
    requires InInt64(x)
    ensures Wrap64(x) == x
  {
  }

  /** Values congruent modulo 2^64 wrap to the same long. */
  lemma {:induction false} WrapShift(x: int, k: int)
    ensures Wrap64(x + k * Modulus64) == Wrap64(x)
  {
    var a := x - MinInt64;
    var q, m := a / Modulus64, a % Modulus64;
    assert a == q * Modulus64 + m;
    assert a + k * Modulus64 == (q + k) * Modulus64 + m;
    assert 0 <= m < Modulus64;
    assert (a + k * Modulus64) % Modulus64 == m;
  }

  /** Wrapping after every step of a sum is the same as wrapping once at the end. */
  lemma {:induction false} WrapAdd(x: int, y: int)
    ensures Wrap64(Wrap64(x) + y) == Wrap64(x + y)
  {
    var a := x - MinInt64;
    var q := a / Modulus64;
    assert a == q * Modulus64 + a % Modulus64;
    assert Wrap64(x) + y == (x + y) + (-q) * Modulus64;
    WrapShift(x + y, -q);
  }
}

=== FILE: observers.dfy ===
/** The observer registry shared by the snapshot service and the UI store:
    an observer list in registration order, a replay-of-one "latest" value,
    disposable subscriptions, and a fan-out over a copy of the list. */
module Observers {
  import opened Numerics

  /** Observers are compared by identity only. */
  type ObserverId = nat

  /** One `OnNext(value)` call on an observer. */
  datatype Delivery<T> = Delivery(to: ObserverId, value: T)

  datatype Registry<T> = Registry(observers: seq<ObserverId>, latest: Option<T>)

  /** What an observer's callback may do to the registry that is calling it:
      subscribe another observer, or dispose a subscription. */
  datatype Reaction = Join(o: ObserverId) | Leave(o: ObserverId)

  /** A registry after a change, with the replays the change delivered. */
  datatype Changed<T> = Changed(registry: Registry<T>, replays: seq<Delivery<T>>)

  /** The outcome of one fan-out: the loop's own deliveries and, separately,
      the replays its callbacks caused; `Rounds` gives their interleaving. */
  datatype Broadcast<T> = Broadcast(
    registry: Registry<T>,
    notified: seq<Delivery<T>>,
    replays: seq<Delivery<T>>)

  function Count(s: seq<ObserverId>, o: ObserverId): nat {
    multiset(s)[o]
  }

  /** The position of the observer's first registration. */
  function FirstIndex(s: seq<ObserverId>, o: ObserverId): (i: nat)
    requires o in s
    ensures i < |s| && s[i] == o && o !in s[..i]
  {
    if s[0] == o then 0
    else
      assert o in s[1..];
      var j := FirstIndex(s[1..], o);
      assert s[..j + 1] == [s[0]] + s[1..][..j];
      j + 1
  }

  /** `List.Remove`: drops the first occurrence of the observer, if any. */
  function RemoveFirst(s: seq<ObserverId>, o: ObserverId): (r: seq<ObserverId>)
    ensures o !in s ==> r == s
    ensures o in s ==> r == s[..FirstIndex(s, o)] + s[FirstIndex(s, o) + 1..]
  {
    if |s| == 0 then s
    else if s[0] == o then s[1..]
    else
      var rest := RemoveFirst(s[1..], o);
      SpliceAfterHead(s, o, rest);
      [s[0]] + rest
  }

  /** The step of `RemoveFirst` past a head that is not the observer: putting
      the head back in front of the tail's removal removes from the whole. */
  lemma SpliceAfterHead(s: seq<ObserverId>, o: ObserverId, rest: seq<ObserverId>)
    requires |s| > 0 && s[0] != o
    requires o !in s[1..] ==> rest == s[1..]
    requires o in s[1..] ==> rest == s[1..][..FirstIndex(s[1..], o)] + s[1..][FirstIndex(s[1..], o) + 1..]
    ensures o !in s ==> [s[0]] + rest == s
    ensures o in s ==> [s[0]] + rest == s[..FirstIndex(s, o)] + s[FirstIndex(s, o) + 1..]
  {
    var t := s[1..];
    if o in s {
      FirstIndexPastHead(s, o);
      SpliceOneLater(s, FirstIndex(t, o), rest);
    } else {
      assert s == [s[0]] + t;
    }
  }

  /** Past a head that is not the observer, its first position is one more
      than in the tail. */
  lemma FirstIndexPastHead(s: seq<ObserverId>, o: ObserverId)
    requires o in s && s[0] != o
    ensures o in s[1..] && FirstIndex(s, o) == FirstIndex(s[1..], o) + 1
  {
    var t := s[1..];
    assert o in t by {
      assert s == [s[0]] + t;
    }
    var j := FirstIndex(t, o);
    assert s[..j + 1] == [s[0]] + t[..j];
    FirstIndexIsFirst(s, o, j + 1);
  }

  /** Dropping position j of the tail is dropping position j + 1 of the whole,
      once the head is put back. */
  lemma SpliceOneLater(s: seq<ObserverId>, j: nat, rest: seq<ObserverId>)
    requires j + 1 < |s| && rest == s[1..][..j] + s[1..][j + 1..]
    ensures [s[0]] + rest == s[..j + 1] + s[j + 2..]
  {
    assert s[..j + 1] == [s[0]] + s[1..][..j];
    assert s[j + 2..] == s[1..][j + 1..];
  }

  /** Removal takes away exactly one registration of the observer, when it has one. */
  lemma {:induction false} RemoveFirstTakesOne(s: seq<ObserverId>, o: ObserverId)
    ensures multiset(RemoveFirst(s, o)) == multiset(s) - multiset{o}
    ensures |RemoveFirst(s, o)| == if o in s then |s| - 1 else |s|
  {
    if o in s {
      var i := FirstIndex(s, o);
      var a, b := s[..i], s[i + 1..];
      assert s == a + [o] + b;
      assert RemoveFirst(s, o) == a + b;
      calc {
        multiset(s);
        multiset(a + [o] + b);
        multiset(a) + multiset{o} + multiset(b);
      }
      assert multiset(a + b) == multiset(a) + multiset(b);
    } else {
      assert multiset(s)[o] == 0;
    }
  }

  /** Disposing a handle twice is a no-op exactly when the observer was not
      registered more than once. */
  lemma SecondRemovalIsNoOp(s: seq<ObserverId>, o: ObserverId)
    ensures RemoveFirst(RemoveFirst(s, o), o) == RemoveFirst(s, o) <==> Count(s, o) <= 1
  {
    var r := RemoveFirst(s, o);
    RemoveFirstTakesOne(s, o);
    RemoveFirstTakesOne(r, o);
    if Count(s, o) <= 1 {
      assert Count(r, o) == 0;
      assert o !in r;
    } else {
      assert Count(r, o) > 0;
      assert o in r;
    }
  }

  /** Removal touches only the observer removed: every other observer keeps
      its number of registrations. */
  lemma RemovalLeavesOthers(s: seq<ObserverId>, o: ObserverId, p: ObserverId)
    requires p != o
    ensures Count(RemoveFirst(s, o), p) == Count(s, p)
  {
    RemoveFirstTakesOne(s, o);
  }

  /** `Subscribe`: append the observer and, when a latest value exists, replay
      it to that observer alone. */
  function Subscribe<T>(reg: Registry<T>, o: ObserverId): (r: Changed<T>)
    ensures r.registry.observers == reg.observers + [o]
    ensures r.registry.latest == reg.latest
    ensures reg.latest.None? ==> r.replays == []
    ensures reg.latest.Some? ==> r.replays == [Delivery(o, reg.latest.value)]
  {
    var replay := match reg.latest
      case Some(v) => [Delivery(o, v)]
      case None => [];
    Changed(Registry(reg.observers + [o], reg.latest), replay)
  }

  /** The subscription handle's `Dispose`. */
  function Unsubscribe<T>(reg: Registry<T>, o: ObserverId): (r: Registry<T>)
    ensures r.latest == reg.latest
    ensures multiset(r.observers) == multiset(reg.observers) - multiset{o}
    ensures o !in reg.observers ==> r == reg
    ensures o in reg.observers ==>
      r.observers == reg.observers[..FirstIndex(reg.observers, o)] + reg.observers[FirstIndex(reg.observers, o) + 1..]
  {
    RemoveFirstTakesOne(reg.observers, o);
    reg.(observers := RemoveFirst(reg.observers, o))
  }

  lemma RemoveFirstOfAppended(s: seq<ObserverId>, o: ObserverId)
    ensures o !in s ==> RemoveFirst(s + [o], o) == s
    ensures o in s ==> RemoveFirst(s + [o], o) == RemoveFirst(s, o) + [o]
  {
    var t := s + [o];
    assert t[..|s|] == s;
    if o in s {
      var i := FirstIndex(s, o);
      assert t[..i] == s[..i];
      FirstIndexIsFirst(t, o, i);
      assert t[i + 1..] == s[i + 1..] + [o];
    } else {
      FirstIndexIsFirst(t, o, |s|);
      assert t[|s| + 1..] == [];
    }
  }

  /** A position holding the observer with no earlier occurrence is its first. */
  lemma FirstIndexIsFirst(s: seq<ObserverId>, o: ObserverId, k: nat)
    requires k < |s| && s[k] == o && o !in s[..k]
    ensures FirstIndex(s, o) == k
  {
  }

  /** Subscribing and then disposing that subscription restores the observer
      list; when the observer was already registered, it is its oldest
      registration that goes. */
  lemma SubscribeThenDispose<T>(reg: Registry<T>, o: ObserverId)
    ensures o !in reg.observers ==> Unsubscribe(Subscribe(reg, o).registry, o) == reg
    ensures o in reg.observers ==>
      Unsubscribe(Subscribe(reg, o).registry, o).observers == RemoveFirst(reg.observers, o) + [o]
  {
    RemoveFirstOfAppended(reg.observers, o);
  }

  /** One reaction applied to the registry, with any replay it causes. */
  function React<T>(reg: Registry<T>, x: Reaction): (r: Changed<T>)
    ensures r.registry.latest == reg.latest
    ensures forall i :: 0 <= i < |r.replays| ==> Some(r.replays[i].value) == reg.latest
  {
    match x
    case Join(o) => Subscribe(reg, o)
    case Leave(o) => Changed(Unsubscribe(reg, o), [])
  }

  function ReactAll<T>(reg: Registry<T>, xs: seq<Reaction>): (r: Changed<T>)
    ensures r.registry.latest == reg.latest
    ensures forall i :: 0 <= i < |r.replays| ==> Some(r.replays[i].value) == reg.latest
    ensures xs == [] ==> r == Changed(reg, [])
    decreases |xs|
  {
    if |xs| == 0 then Changed(reg, [])
    else
      var first := React(reg, xs[0]);
      var rest := ReactAll(first.registry, xs[1..]);
      var all := first.replays + rest.replays;
      assert forall i :: 0 <= i < |all| ==> Some(all[i].value) == reg.latest by {
        forall i | 0 <= i < |all|
          ensures Some(all[i].value) == reg.latest
        {
          if i < |first.replays| {
            assert all[i] == first.replays[i];
          } else {
            assert all[i] == rest.replays[i - |first.replays|];
          }
        }
      }
      Changed(rest.registry, all)
  }

  /** The `foreach` over a copy of the observer list: every target gets `value`
      once, in order, whatever its callback does to the registry meanwhile.
      `reactions[i]` is what the i-th target's callback does (none when absent). */
  function FanOut<T>(reg: Registry<T>, targets: seq<ObserverId>, value: T, reactions: seq<seq<Reaction>>): (b: Broadcast<T>)
    ensures |b.notified| == |targets|
    ensures forall i :: 0 <= i < |targets| ==> b.notified[i] == Delivery(targets[i], value)
    ensures b.registry.latest == reg.latest
    ensures forall i :: 0 <= i < |b.replays| ==> Some(b.replays[i].value) == reg.latest
    ensures (forall i :: 0 <= i < |reactions| ==> reactions[i] == []) ==> b.registry == reg && b.replays == []
    decreases |targets|
  {
    if |targets| == 0 then Broadcast(reg, [], [])
    else
      var now := if |reactions| > 0 then reactions[0] else [];
      var later := if |reactions| > 0 then reactions[1..] else [];
      var first := ReactAll(reg, now);
      var b := FanOut(first.registry, targets[1..], value, later);
      var notified := [Delivery(targets[0], value)] + b.notified;
      var replays := first.replays + b.replays;
      assert forall i :: 0 <= i < |targets| ==> notified[i] == Delivery(targets[i], value) by {
        forall i | 0 <= i < |targets|
          ensures notified[i] == Delivery(targets[i], value)
        {
          if i > 0 {
            assert notified[i] == b.notified[i - 1];
            assert targets[1..][i - 1] == targets[i];
          }
        }
      }
      assert forall i :: 0 <= i < |replays| ==> Some(replays[i].value) == reg.latest by {
        forall i | 0 <= i < |replays|
          ensures Some(replays[i].value) == reg.latest
        {
          if i < |first.replays| {
            assert replays[i] == first.replays[i];
          } else {
            assert replays[i] == b.replays[i - |first.replays|];
          }
        }
      }
      assert (forall i :: 0 <= i < |reactions| ==> reactions[i] == []) ==> b.registry == reg && replays == [] by {
        if forall i :: 0 <= i < |reactions| ==> reactions[i] == [] {
          assert now == [] && first == Changed(reg, []);
          assert forall i :: 0 <= i < |later| ==> later[i] == reactions[i + 1];
        }
      }
      Broadcast(b.registry, notified, replays)
  }

  /** The same loop when the callback of the target at position `k` throws,
      after its own reactions: the targets up to and including `k` have
      received the value, the later ones have not, and the exception leaves
      the loop. */
  function FanOutUntilThrow<T>(reg: Registry<T>, targets: seq<ObserverId>, value: T, reactions: seq<seq<Reaction>>, k: nat): (b: Broadcast<T>)
    requires k < |targets|
    ensures |b.notified| == k + 1 < |targets| + 1
    ensures forall i :: 0 <= i <= k ==> b.notified[i] == Delivery(targets[i], value)
    ensures b.notified == FanOut(reg, targets, value, reactions).notified[..k + 1]
    ensures b.registry.latest == reg.latest
  {
    FanOut(reg, targets[..k + 1], value, reactions)
  }

  /** What the i-th target's callback does (nothing when absent). */
  function ReactionsOf(reactions: seq<seq<Reaction>>, i: nat): (now: seq<Reaction>)
    ensures i < |reactions| ==> now == reactions[i]
    ensures i >= |reactions| ==> now == []
  {
    if i < |reactions| then reactions[i] else []
  }

  /** The `OnNext` calls made while the i-th target is being notified: its
      delivery, then the replays its callback causes by subscribing, run at
      once on the registry as the first i targets' callbacks left it. */
  function Round<T>(reg: Registry<T>, targets: seq<ObserverId>, value: T, reactions: seq<seq<Reaction>>, i: nat): (x: seq<Delivery<T>>)
    requires i < |targets|
    ensures |x| >= 1 && x[0] == Delivery(targets[i], value)
    ensures forall j :: 1 <= j < |x| ==> Some(x[j].value) == reg.latest
    ensures ReactionsOf(reactions, i) == [] ==> |x| == 1
  {
    var before := FanOut(reg, targets[..i], value, reactions).registry;
    var replays := ReactAll(before, ReactionsOf(reactions, i)).replays;
    var x := [Delivery(targets[i], value)] + replays;
    assert forall j :: 1 <= j < |x| ==> x[j] == replays[j - 1];
    x
  }

  /** The `OnNext` calls of the same loop in the order they happen, grouped by
      target: replays caused by a callback come before the next target is
      notified. */
  function Rounds<T>(reg: Registry<T>, targets: seq<ObserverId>, value: T, reactions: seq<seq<Reaction>>): (r: seq<seq<Delivery<T>>>)
    ensures |r| == |targets|
    ensures forall i :: 0 <= i < |targets| ==> |r[i]| >= 1 && r[i][0] == Delivery(targets[i], value)
    ensures forall i, j :: 0 <= i < |r| && 1 <= j < |r[i]| ==> Some(r[i][j].value) == reg.latest
    ensures (forall i :: 0 <= i < |reactions| ==> reactions[i] == []) ==>
      forall i :: 0 <= i < |r| ==> |r[i]| == 1
  {
    seq(|targets|, i requires 0 <= i < |targets| => Round(reg, targets, value, reactions, i))
  }

  /** After the first target, the rounds are those of the rest of the loop,
      run on the registry the first callback left. */
  lemma RoundShift<T>(reg: Registry<T>, targets: seq<ObserverId>, value: T, reactions: seq<seq<Reaction>>, i: nat)
    requires 0 < i < |targets|
    ensures var later := if |reactions| > 0 then reactions[1..] else [];
      var first := ReactAll(reg, ReactionsOf(reactions, 0));
      Round(reg, targets, value, reactions, i) == Round(first.registry, targets[1..], value, later, i - 1)
  {
    var later := if |reactions| > 0 then reactions[1..] else [];
    assert targets[..i][1..] == targets[1..][..i - 1];
    assert ReactionsOf(reactions, i) == ReactionsOf(later, i - 1);
  }

  /** Rounds run one after another. */
  function Flatten<T>(xss: seq<seq<T>>): seq<T> {
    if |xss| == 0 then [] else xss[0] + Flatten(xss[1..])
  }

  /** Everything after the first call of each round, in order. */
  function AfterFirsts<T>(xss: seq<seq<T>>): seq<T> {
    if |xss| == 0 then []
    else (if |xss[0]| > 0 then xss[0][1..] else []) + AfterFirsts(xss[1..])
  }

  /** After the first round come the rounds of the rest of the loop, run on
      the registry the first callback left. */
  lemma RoundsTail<T>(reg: Registry<T>, targets: seq<ObserverId>, value: T, reactions: seq<seq<Reaction>>)
    requires |targets| > 0
    ensures var later := if |reactions| > 0 then reactions[1..] else [];
      var first := ReactAll(reg, ReactionsOf(reactions, 0));
      Rounds(reg, targets, value, reactions)[1..] == Rounds(first.registry, targets[1..], value, later)
  {
    var later := if |reactions| > 0 then reactions[1..] else [];
    var first := ReactAll(reg, ReactionsOf(reactions, 0));
    var rs := Rounds(reg, targets, value, reactions);
    var rest := Rounds(first.registry, targets[1..], value, later);
    forall i | 0 <= i < |rest|
      ensures rs[1..][i] == rest[i]
    {
      RoundShift(reg, targets, value, reactions, i + 1);
    }
  }

  /** The first round's replays, then the rounds of the rest of the loop. */
  lemma RoundsStep<T>(reg: Registry<T>, targets: seq<ObserverId>, value: T, reactions: seq<seq<Reaction>>)
    requires |targets| > 0
    ensures var later := if |reactions| > 0 then reactions[1..] else [];
      var first := ReactAll(reg, ReactionsOf(reactions, 0));
      AfterFirsts(Rounds(reg, targets, value, reactions))
        == first.replays + AfterFirsts(Rounds(first.registry, targets[1..], value, later))
  {
    var rs := Rounds(reg, targets, value, reactions);
    assert rs[0][1..] == ReactAll(reg, ReactionsOf(reactions, 0)).replays by {
      assert targets[..0] == [];
    }
    RoundsTail(reg, targets, value, reactions);
  }

  /** The rounds regroup the fan-out: their first calls are its deliveries and
      the rest of their calls are its replays, in the same order. */
  lemma {:induction false} RoundsRegroupFanOut<T>(reg: Registry<T>, targets: seq<ObserverId>, value: T, reactions: seq<seq<Reaction>>)
    ensures var rs := Rounds(reg, targets, value, reactions);
      var b := FanOut(reg, targets, value, reactions);
      && (forall i :: 0 <= i < |rs| ==> rs[i][0] == b.notified[i])
      && AfterFirsts(rs) == b.replays
    decreases |targets|
  {
    if |targets| > 0 {
      var later := if |reactions| > 0 then reactions[1..] else [];
      var first := ReactAll(reg, ReactionsOf(reactions, 0));
      RoundsStep(reg, targets, value, reactions);
      assert FanOut(reg, targets, value, reactions).replays
        == first.replays + FanOut(first.registry, targets[1..], value, later).replays;
      RoundsRegroupFanOut(first.registry, targets[1..], value, later);
    }
  }

  /** Publishing delivers to the observers registered when it starts. */
  function Publish<T>(reg: Registry<T>, value: T, reactions: seq<seq<Reaction>>): (b: Broadcast<T>)
    ensures |b.notified| == |reg.observers|
    ensures forall i :: 0 <= i < |reg.observers| ==> b.notified[i] == Delivery(reg.observers[i], value)
    ensures b.registry.latest == reg.latest
    ensures forall i :: 0 <= i < |b.replays| ==> Some(b.replays[i].value) == reg.latest
    ensures (forall i :: 0 <= i < |reactions| ==> reactions[i] == []) ==> b.registry == reg && b.replays == []
  {
    FanOut(reg, reg.observers, value, reactions)
  }

  /** Reactions cannot change who is notified: the same publish with callbacks
      that do nothing notifies the same observers in the same order. */
  lemma ReactionsDoNotChangeNotified<T>(reg: Registry<T>, value: T, reactions: seq<seq<Reaction>>)
    ensures Publish(reg, value, reactions).notified == Publish(reg, value, []).notified
    ensures Publish(reg, value, []).registry == reg
  {
  }
}

=== FILE: percent.dfy ===
/** A percentage clamped into [0, 100] on construction. The source's doubles are
    modelled as reals, so NaN and the infinities do not arise. */
module Percents {

  datatype Percent = Percent(value: real)

  /** `Math.Clamp(v, lo, hi)` for lo <= hi. */
  function Clamp(v: real, lo: real, hi: real): (r: real)
    requires lo <= hi
    ensures lo <= r <= hi
    ensures lo <= v <= hi ==> r == v
    ensures v < lo ==> r == lo
    ensures v > hi ==> r == hi
  {
    if v < lo then lo else if v > hi then hi else v
  }

  predicate InRange(p: Percent) {
    0.0 <= p.value <= 100.0
  }

  /** The clamping constructor `new Percent(value)`. */
  function Of(value: real): (p: Percent)
    ensures InRange(p)
    ensures 0.0 <= value <= 100.0 ==> p.value == value
    ensures value < 0.0 ==> p.value == 0.0
    ensures value > 100.0 ==> p.value == 100.0
  {
    Percent(Clamp(value, 0.0, 100.0))
  }

  const Zero: Percent := Of(0.0)

  /** `FromRatio(ratio)`: the ratio scaled by 100, clamped (twice, harmlessly). */
  function FromRatio(ratio: real): (p: Percent)
    ensures InRange(p)
    ensures 0.0 <= ratio <= 1.0 ==> p.value == ratio * 100.0
    ensures ratio < 0.0 ==> p.value == 0.0
    ensures ratio > 1.0 ==> p.value == 100.0
  {
    Of(Clamp(ratio * 100.0, 0.0, 100.0))
  }

  /** Zero holds 0, and constructing from an in-range value is the identity on
      percents: clamping is idempotent. */
  lemma OfIsIdempotent(value: real)
    ensures Zero.value == 0.0
    ensures Of(Of(value).value) == Of(value)
    ensures forall p: Percent :: InRange(p) ==> Of(p.value) == p
  {
  }

  /** The worked examples: 0.5 is 50%, -0.2 is 0% and 1.4 is 100%. */
  lemma FromRatioExamples()
    ensures FromRatio(0.5).value == 50.0
    ensures FromRatio(-0.2).value == 0.0
    ensures FromRatio(1.4).value == 100.0
  {
  }

  /** A larger ratio never gives a smaller percentage. */
  lemma FromRatioIsMonotone(r1: real, r2: real)
    requires r1 <= r2
    ensures FromRatio(r1).value <= FromRatio(r2).value
  {
  }
}

=== FILE: placement_advisor.dfy ===
/** Predicts where a value is placed by the runtime: stack, pinned-object heap,
    large-object heap or small-object heap. */
module PlacementAdvisor {
  import opened Numerics
  import opened Enums
  import opened ByteSizes
  import opened Records

  /** Arrays of at least this many bytes go to the large-object heap. */
  const LohThreshold: ByteSize := ByteSize(85_000)

  const StackExplanation: string := "Temporary storage on the current method stack (lifetime until method returns)."
  const PinnedExplanation: string := "Pinned object: goes to POH so it does not interfere with SOH compaction."
  const LargeArrayExplanation: string := "Large array (≥ ~85 KB): allocated on LOH (Large Object Heap)."
  const SmallObjectExplanation: string := "Small object: allocated on SOH starting in Gen0; surviving objects may be promoted to Gen1/Gen2."

  /** `Advise`: stack allocation wins, then pinning, then the inclusive
      large-array threshold; everything else starts in Gen0 of the small-object heap. */
  function Advise(q: PlacementQuery): (a: PlacementAdvice)
    ensures a.flavor == AllocationFlavor.Stack <==> q.isStackAlloc
    ensures a.flavor == AllocationFlavor.POH <==> !q.isStackAlloc && q.isPinned
    ensures a.flavor == AllocationFlavor.LOH <==>
      !q.isStackAlloc && !q.isPinned && q.valueKind == Array && q.size.bytes >= 85_000
    ensures a.flavor == AllocationFlavor.SOH <==>
      !q.isStackAlloc && !q.isPinned && (q.valueKind != Array || q.size.bytes < 85_000)
    ensures a.initialGeneration.Some? <==> a.flavor == AllocationFlavor.SOH
    ensures a.initialGeneration.Some? ==> a.initialGeneration.value == Gen0
  {
    if q.isStackAlloc then
      PlacementAdvice(AllocationFlavor.Stack, None, StackExplanation)
    else if q.isPinned then
      PlacementAdvice(AllocationFlavor.POH, None, PinnedExplanation)
    else if q.valueKind == Array && GreaterOrEqual(q.size, LohThreshold) then
      PlacementAdvice(AllocationFlavor.LOH, None, LargeArrayExplanation)
    else
      PlacementAdvice(AllocationFlavor.SOH, Some(Gen0), SmallObjectExplanation)
  }

  /** The threshold is inclusive: an 84,999-byte array stays small, an
      85,000-byte one is large. */
  lemma ThresholdIsInclusive()
    ensures Advise(PlacementQuery(Array, ByteSize(84_999), false, false)).flavor == AllocationFlavor.SOH
    ensures Advise(PlacementQuery(Array, ByteSize(85_000), false, false)).flavor == AllocationFlavor.LOH
  {
  }

  /** Only arrays reach the large-object heap: a class or struct of any size never does. */
  lemma NonArraysNeverLarge(q: PlacementQuery)
    requires q.valueKind != Array
    ensures Advise(q).flavor != AllocationFlavor.LOH
    ensures !q.isStackAlloc && !q.isPinned ==> Advise(q).flavor == AllocationFlavor.SOH
  {
  }

  /** Stack allocation decides alone: pinning, kind and size are irrelevant. */
  lemma StackAllocDecidesAlone(q: PlacementQuery, kind: ValueKind, size: ByteSize, pinned: bool)
    requires q.isStackAlloc
    ensures Advise(q) == Advise(PlacementQuery(kind, size, pinned, true))
  {
  }
}

=== FILE: runtime_counters.dfy ===
/** The event listener's extraction of counter updates from an event payload,
    and their delivery to the aggregator. */
module RuntimeCounters {
  import opened Numerics
  import Agg = GcMetricsAggregator

  /** A payload dictionary value: a double, a string, or anything else (null included). */
  datatype PayloadValue = Double(d: real) | Str(s: string) | Other

  /** A payload item: a string-keyed dictionary, or some other object. */
  datatype PayloadItem = Dictionary(data: map<string, PayloadValue>) | NotADictionary

  /** One `OnCounter(name, value)` call. */
  datatype CounterUpdate = CounterUpdate(name: string, value: real)

  predicate HasDouble(data: map<string, PayloadValue>, key: string) {
    key in data && data[key].Double?
  }

  /** The item's counter name, when it is a dictionary whose "Name" is a string. */
  function NameOf(item: PayloadItem): (r: Option<string>)
    ensures r.Some? <==> item.Dictionary? && "Name" in item.data && item.data["Name"].Str?
    ensures r.Some? ==> r.value == item.data["Name"].s
  {
    if item.Dictionary? && "Name" in item.data && item.data["Name"].Str? then
      Some(item.data["Name"].s)
    else
      None
  }

  /** The counter value: "Value" if it is a double, else "Mean", else
      "Increment", else 0. */
  function ValueOf(data: map<string, PayloadValue>): (r: real)
    ensures HasDouble(data, "Value") ==> r == data["Value"].d
    ensures !HasDouble(data, "Value") && HasDouble(data, "Mean") ==> r == data["Mean"].d
    ensures !HasDouble(data, "Value") && !HasDouble(data, "Mean") && HasDouble(data, "Increment") ==>
      r == data["Increment"].d
    ensures !HasDouble(data, "Value") && !HasDouble(data, "Mean") && !HasDouble(data, "Increment") ==>
      r == 0.0
  {
    if HasDouble(data, "Value") then data["Value"].d
    else if HasDouble(data, "Mean") then data["Mean"].d
    else if HasDouble(data, "Increment") then data["Increment"].d
    else 0.0
  }

  /** A non-zero value was read from one of the three keys. */
  lemma ValueComesFromPayload(data: map<string, PayloadValue>)
    ensures ValueOf(data) == 0.0
         || (exists k :: k in ["Value", "Mean", "Increment"] && HasDouble(data, k) && data[k].d == ValueOf(data))
  {
    if HasDouble(data, "Value") {
      assert "Value" in ["Value", "Mean", "Increment"];
    } else if HasDouble(data, "Mean") {
      assert "Mean" in ["Value", "Mean", "Increment"];
    } else if HasDouble(data, "Increment") {
      assert "Increment" in ["Value", "Mean", "Increment"];
    }
  }

  /** The updates the `foreach` over the payload issues, in payload order:
      one per item with a string name, none for any other item. */
  function Updates(items: seq<PayloadItem>): (r: seq<CounterUpdate>)
    ensures |r| <= |items|
  {
    if |items| == 0 then []
    else
      var head := match NameOf(items[0])
        case Some(name) => [CounterUpdate(name, ValueOf(items[0].data))]
        case None => [];
      head + Updates(items[1..])
  }

  /** One item alone: exactly one update when it has a string name, none otherwise. */
  lemma UpdatesOfOneItem(item: PayloadItem)
    ensures NameOf(item).Some? ==> Updates([item]) == [CounterUpdate(NameOf(item).value, ValueOf(item.data))]
    ensures NameOf(item).None? ==> Updates([item]) == []
  {
    assert [item][1..] == [];
  }

  /** Updates of concatenated payloads concatenate, so the order of the payload
      is the order of the calls. */
  lemma {:induction false} UpdatesDistribute(a: seq<PayloadItem>, b: seq<PayloadItem>)
    ensures Updates(a + b) == Updates(a) + Updates(b)
  {
    if |a| == 0 {
      assert a + b == b;
    } else {
      assert (a + b)[0] == a[0];
      assert (a + b)[1..] == a[1..] + b;
      UpdatesDistribute(a[1..], b);
    }
  }

  /** Every update is one the aggregator accepts. */
  predicate AllAccepted(updates: seq<CounterUpdate>) {
    forall i :: 0 <= i < |updates| ==> Agg.Accepts(updates[i].name, updates[i].value)
  }

  /** The aggregator state after the updates, applied in order. */
  function Apply(s: Agg.AggregatorState, updates: seq<CounterUpdate>): Agg.AggregatorState
    requires AllAccepted(updates)
    decreases |updates|
  {
    if |updates| == 0 then s
    else Apply(Agg.OnCounter(s, updates[0].name, updates[0].value), updates[1..])
  }

  /** `OnEventWritten`: a missing payload does nothing; otherwise every named
      item reaches `OnCounter` once, in order. */
  function OnEventWritten(s: Agg.AggregatorState, payload: Option<seq<PayloadItem>>): (r: Agg.AggregatorState)
    requires payload.Some? ==> AllAccepted(Updates(payload.value))
    ensures payload.None? ==> r == s
  {
    match payload
    case None => s
    case Some(items) => Apply(s, Updates(items))
  }

  lemma {:induction false} ApplyAppend(s: Agg.AggregatorState, a: seq<CounterUpdate>, b: seq<CounterUpdate>)
    requires AllAccepted(a) && AllAccepted(b)
    ensures AllAccepted(a + b)
    ensures Apply(s, a + b) == Apply(Apply(s, a), b)
    decreases |a|
  {
    assert AllAccepted(a + b) by {
      forall i | 0 <= i < |a + b|
        ensures Agg.Accepts((a + b)[i].name, (a + b)[i].value)
      {
        if i < |a| { assert (a + b)[i] == a[i]; } else { assert (a + b)[i] == b[i - |a|]; }
      }
    }
    if |a| > 0 {
      assert (a + b)[1..] == a[1..] + b;
      assert AllAccepted(a[1..]) by {
        forall i | 0 <= i < |a[1..]| ensures Agg.Accepts(a[1..][i].name, a[1..][i].value) {
          assert a[1..][i] == a[i + 1];
        }
      }
      ApplyAppend(Agg.OnCounter(s, a[0].name, a[0].value), a[1..], b);
    } else {
      assert a + b == b;
    }
  }

  /** Handling one event is the same as handling its payload split into two
      consecutive events: the items are processed strictly one after another. */
  lemma EventIsProcessedItemByItem(s: Agg.AggregatorState, a: seq<PayloadItem>, b: seq<PayloadItem>)
    requires AllAccepted(Updates(a)) && AllAccepted(Updates(b))
    ensures AllAccepted(Updates(a + b))
    ensures OnEventWritten(s, Some(a + b)) == OnEventWritten(OnEventWritten(s, Some(a)), Some(b))
  {
    UpdatesDistribute(a, b);
    ApplyAppend(s, Updates(a), Updates(b));
  }

  /** Items whose name the aggregator does not recognise reach it and change nothing. */
  lemma {:induction false} UnrecognisedNamesChangeNothing(s: Agg.AggregatorState, items: seq<PayloadItem>)
    requires forall i :: 0 <= i < |items| ==> NameOf(items[i]).None? || Agg.CounterOf(NameOf(items[i]).value).None?
    ensures AllAccepted(Updates(items))
    ensures OnEventWritten(s, Some(items)) == s
  {
    if |items| > 0 {
      UnrecognisedNamesChangeNothing(s, items[1..]);
      var rest := Updates(items[1..]);
      if NameOf(items[0]).Some? {
        var u := CounterUpdate(NameOf(items[0]).value, ValueOf(items[0].data));
        assert Updates(items) == [u] + rest;
        assert ([u] + rest)[1..] == rest;
      } else {
        assert Updates(items) == rest;
      }
    }
  }

  /** A payload naming one size counter stores the (truncated) value read from it. */
  lemma SingleSizeCounterExample(s: Agg.AggregatorState)
    ensures var item := Dictionary(map["Name" := Str("gen-0-size"), "Mean" := Double(4096.9), "Increment" := Double(1.0)]);
      AllAccepted(Updates([item])) && OnEventWritten(s, Some([item])).gen0Size == 4096
  {
    var item := Dictionary(map["Name" := Str("gen-0-size"), "Mean" := Double(4096.9), "Increment" := Double(1.0)]);
    UpdatesOfOneItem(item);
    assert Updates([item]) == [CounterUpdate("gen-0-size", 4096.9)];
    var u := CounterUpdate("gen-0-size", 4096.9);
    assert Agg.CounterOf("gen-0-size") == Some(Agg.Gen0Size);
    assert Trunc(4096.9) == 4096;
    assert [u][1..] == [];
    assert Apply(s, [u]) == Apply(Agg.OnCounter(s, u.name, u.value), []);
  }
}

=== FILE: threads_snapshot.dfy ===
/** The per-thread list used for stack visualisation and its summed stack reserve. */
module ThreadsSnapshots {
  import opened Numerics
  import opened ByteSizes
  import opened Records

  datatype ThreadsSnapshot = ThreadsSnapshot(totalThreads: int32, threads: seq<ThreadInfo>)

  /** The mathematical sum of the listed threads' stack reserves. */
  function ReserveSum(threads: seq<ThreadInfo>): int {
    if |threads| == 0 then 0 else threads[0].stackReserve.bytes + ReserveSum(threads[1..])
  }

  /** Appending one thread adds exactly its reserve to the sum. */
  lemma {:induction false} ReserveSumAppend(threads: seq<ThreadInfo>, t: ThreadInfo)
    ensures ReserveSum(threads + [t]) == ReserveSum(threads) + t.stackReserve.bytes
  {
    if |threads| == 0 {
      assert threads + [t] == [t];
      assert [t][1..] == [];
    } else {
      assert (threads + [t])[1..] == threads[1..] + [t];
      ReserveSumAppend(threads[1..], t);
    }
  }

  /** `EstimatedTotalStackReserve`: a long accumulator over the listed threads.
      The `+=` is unchecked, so the result is the sum wrapped into the long range;
      when the sum fits, it is the sum itself. */
  method EstimatedTotalStackReserve(s: ThreadsSnapshot) returns (r: ByteSize)
    ensures r.bytes == Wrap64(ReserveSum(s.threads))
    ensures InInt64(ReserveSum(s.threads)) ==> r.bytes == ReserveSum(s.threads)
    ensures s.threads == [] ==> r.bytes == 0
  {
    var total: int64 := 0;
    var i := 0;
    while i < |s.threads|
      invariant 0 <= i <= |s.threads|
      invariant total == Wrap64(ReserveSum(s.threads[..i]))
    {
      var t := s.threads[i];
      assert s.threads[..i + 1] == s.threads[..i] + [t];
      ReserveSumAppend(s.threads[..i], t);
      WrapInRange(total);
      WrapAdd(ReserveSum(s.threads[..i]), t.stackReserve.bytes);
      total := Wrap64(total + t.stackReserve.bytes);
      i := i + 1;
    }
    assert s.threads[..i] == s.threads;
    if InInt64(ReserveSum(s.threads)) {
      WrapInRange(ReserveSum(s.threads));
    }
    r := ByteSize(total);
  }

  predicate SameReserves(a: seq<ThreadInfo>, b: seq<ThreadInfo>) {
    |a| == |b| && forall i :: 0 <= i < |a| ==> a[i].stackReserve == b[i].stackReserve
  }

  /** Only the reserves count: thread ids, call depths, UI-thread flags and the
      snapshot's `totalThreads` never change the sum. */
  lemma {:induction false} ReserveSumIgnoresOtherFields(a: seq<ThreadInfo>, b: seq<ThreadInfo>)
    requires SameReserves(a, b)
    ensures ReserveSum(a) == ReserveSum(b)
  {
    if |a| > 0 {
      assert SameReserves(a[1..], b[1..]) by {
        forall i | 0 <= i < |a[1..]|
          ensures a[1..][i].stackReserve == b[1..][i].stackReserve
        {
          assert a[1..][i] == a[i + 1] && b[1..][i] == b[i + 1];
        }
      }
      ReserveSumIgnoresOtherFields(a[1..], b[1..]);
    }
  }

  predicate NonNegativeReserves(threads: seq<ThreadInfo>) {
    forall i :: 0 <= i < |threads| ==> threads[i].stackReserve.bytes >= 0
  }

  /** With no negative reserve, the sum is at least every single reserve. */
  lemma {:induction false} ReserveSumBoundsEach(threads: seq<ThreadInfo>, i: int)
    requires NonNegativeReserves(threads)
    requires 0 <= i < |threads|
    ensures ReserveSum(threads) >= threads[i].stackReserve.bytes
    ensures ReserveSum(threads) >= 0
  {
    if i == 0 {
      ReserveSumNonNegative(threads[1..]);
    } else {
      assert threads[1..][i - 1] == threads[i];
      ReserveSumBoundsEach(threads[1..], i - 1);
    }
  }

  lemma {:induction false} ReserveSumNonNegative(threads: seq<ThreadInfo>)
    requires NonNegativeReserves(threads)
    ensures ReserveSum(threads) >= 0
  {
    if |threads| > 0 {
      assert NonNegativeReserves(threads[1..]) by {
        forall j | 0 <= j < |threads[1..]|
          ensures threads[1..][j].stackReserve.bytes >= 0
        {
          assert threads[1..][j] == threads[j + 1];
        }
      }
      ReserveSumNonNegative(threads[1..]);
    }
  }
}

=== FILE: ui_state.dfy ===
/** The UI-facing state: a source snapshot and a bounded, most-recent-first
    history of total managed sizes. */
module UiStates {
  import opened Numerics
  import opened ByteSizes
  import opened MemorySnapshots

  datatype UiState = UiState(
    snapshot: MemorySnapshot,
    totalManagedHistory: seq<int64>,
    historyCapacity: int32)

  /** The new history: the value, then as many old entries as fit below the capacity. */
  function PushHistory(history: seq<int64>, value: int64, capacity: int): seq<int64>
    requires capacity >= 0
  {
    [value] + history[..Max(0, Min(|history|, capacity - 1))]
  }

  /** `WithPushedManaged`: a copy of the state whose history starts with the
      pushed value followed by the oldest-first prefix of the old history that
      keeps the length within the capacity (a capacity of 0 still keeps the
      pushed value). A negative capacity makes the list constructor throw and
      is excluded. */
  function WithPushedManaged(u: UiState, totalManaged: ByteSize): (r: UiState)
    requires u.historyCapacity >= 0
    ensures r.snapshot == u.snapshot && r.historyCapacity == u.historyCapacity
    ensures |r.totalManagedHistory| == Min(Max(u.historyCapacity, 1), |u.totalManagedHistory| + 1)
    ensures r.totalManagedHistory[0] == totalManaged.bytes
    ensures forall i :: 1 <= i < |r.totalManagedHistory| ==>
      r.totalManagedHistory[i] == u.totalManagedHistory[i - 1]
    ensures u.historyCapacity >= 1 ==> |r.totalManagedHistory| <= u.historyCapacity
  {
    u.(totalManagedHistory := PushHistory(u.totalManagedHistory, totalManaged.bytes, u.historyCapacity))
  }

  /** A sequence reversed: most recent (last) first. */
  function Reverse<T>(s: seq<T>): (r: seq<T>)
    ensures |r| == |s|
  {
    if |s| == 0 then [] else [s[|s| - 1]] + Reverse(s[..|s| - 1])
  }

  /** Position i of the reversal holds the i-th element from the end. */
  lemma {:induction false} ReverseIndexed<T>(s: seq<T>)
    ensures forall i :: 0 <= i < |s| ==> Reverse(s)[i] == s[|s| - 1 - i]
  {
    if |s| > 0 {
      ReverseIndexed(s[..|s| - 1]);
    }
  }

  /** The history after pushing `values` in order. */
  function PushAll(history: seq<int64>, values: seq<int64>, capacity: int): seq<int64>
    requires capacity >= 0
  {
    if |values| == 0 then history
    else PushHistory(PushAll(history, values[..|values| - 1], capacity), values[|values| - 1], capacity)
  }

  /** A history within capacity keeps, after any number of pushes, exactly the
      most recent values that fit, most recent first. */
  lemma {:induction false} PushAllKeepsMostRecent(history: seq<int64>, values: seq<int64>, capacity: int)
    requires capacity >= 1 && |history| <= capacity
    ensures PushAll(history, values, capacity)
         == (Reverse(values) + history)[..Min(|values| + |history|, capacity)]
  {
    if |values| == 0 {
      assert Reverse(values) + history == history;
    } else {
      var front, v := values[..|values| - 1], values[|values| - 1];
      PushAllKeepsMostRecent(history, front, capacity);
      var x := Reverse(front) + history;
      var k := Min(|front| + |history|, capacity);
      assert Reverse(values) == [v] + Reverse(front);
      assert Reverse(values) + history == [v] + x;
      var m := Max(0, Min(k, capacity - 1));
      assert m == Min(|front| + |history|, capacity - 1);
      assert x[..k][..m] == x[..m];
      assert ([v] + x)[..m + 1] == [v] + x[..m];
    }
  }

  /** Pushing 10, 20, 30, 40 into an empty history of capacity 3 keeps [40, 30, 20]. */
  lemma PushExample()
    ensures PushAll([], [10, 20, 30, 40], 3) == [40, 30, 20]
  {
    PushAllKeepsMostRecent([], [10, 20, 30, 40], 3);
    assert Reverse([10, 20, 30, 40]) == [40, 30, 20, 10] by {
      assert [10, 20, 30, 40][..3] == [10, 20, 30];
      assert [10, 20, 30][..2] == [10, 20];
      assert [10, 20][..1] == [10];
    }
  }
}

=== FILE: ui_store.dfy ===
/** The UI store: projects each domain snapshot into a `UiState` with a
    capped history, keeps it as the latest state, and republishes it to its
    own observers through a dispatcher, modelled as a FIFO of pending
    publications that a separate step runs. */
module UiStore {
  import opened Numerics
  import opened ByteSizes
  import opened MemorySnapshots
  import opened UiStates
  import opened Observers
  import Enums
  import Records
  import Percents
  import HeapBreakdowns
  import ThreadsSnapshots

  /** A history capacity after coercion: at least 1. */
  type Capacity = c: int | 1 <= c <= MaxInt32 witness 1

  datatype StoreState = StoreState(
    historyCapacity: Capacity,
    registry: Registry<UiState>,
    upstreamSubscribed: bool,
    pending: seq<UiState>)

  /** `OnDomainSnapshot`: the new latest state is the previous history (or an
      empty one) pushed with the snapshot's managed total; when anyone is
      subscribed, one publication of it is queued on the dispatcher. Computing
      the managed total may overflow, in which case the exception leaves the
      store unchanged. */
  function OnDomainSnapshot(st: StoreState, snapshot: MemorySnapshot): (r: Checked<StoreState>)
    ensures r.Overflow? <==> TotalManagedCommitted(snapshot).Overflow?
    ensures r.Ok? ==>
      var previous := if st.registry.latest.Some? then st.registry.latest.value.totalManagedHistory else [];
      var s := r.value;
      && s.registry.latest.Some?
      && s.registry.latest.value.snapshot == snapshot
      && s.registry.latest.value.historyCapacity == st.historyCapacity
      && s.registry.latest.value.totalManagedHistory
           == PushHistory(previous, TotalManagedCommitted(snapshot).value.bytes, st.historyCapacity)
      && s.registry.observers == st.registry.observers
      && s.historyCapacity == st.historyCapacity
      && s.upstreamSubscribed == st.upstreamSubscribed
      && s.pending == if |st.registry.observers| == 0 then st.pending
                      else st.pending + [s.registry.latest.value]
  {
    match TotalManagedCommitted(snapshot)
    case Overflow => Overflow
    case Ok(total) =>
      var previous := match st.registry.latest
        case Some(u) => u.totalManagedHistory
        case None => [];
      var state := WithPushedManaged(UiState(snapshot, previous, st.historyCapacity), total);
      var updated := st.(registry := st.registry.(latest := Some(state)));
      if |st.registry.observers| == 0 then Ok(updated)
      else Ok(updated.(pending := st.pending + [state]))
  }

  /** The constructor: the capacity is coerced to at least 1 and the store
      subscribes upstream, which replays the provider's latest snapshot, if
      any, straight into `OnDomainSnapshot` (with no observers yet, so nothing
      is queued). */
  function Create(historyPoints: int32, providerLatest: Option<MemorySnapshot>): (r: Checked<StoreState>)
    ensures r.Ok? ==>
      && r.value.historyCapacity == Max(1, historyPoints)
      && r.value.registry.observers == []
      && r.value.pending == []
      && r.value.upstreamSubscribed
      && (r.value.registry.latest.Some? <==> providerLatest.Some?)
    ensures providerLatest.None? ==> r.Ok? && r.value.registry.latest.None?
    ensures r.Overflow? <==> providerLatest.Some? && TotalManagedCommitted(providerLatest.value).Overflow?
    ensures r.Ok? && providerLatest.Some? ==>
      && r.value.registry.latest.value.snapshot == providerLatest.value
      && r.value.registry.latest.value.totalManagedHistory == [TotalManagedCommitted(providerLatest.value).value.bytes]
  {
    var empty := StoreState(Max(1, historyPoints), Registry([], None), true, []);
    match providerLatest
    case None => Ok(empty)
    case Some(snapshot) => OnDomainSnapshot(empty, snapshot)
  }

  /** `Subscribe`: registers the observer and replays the latest state to it alone. */
  function Subscribe(st: StoreState, o: ObserverId): (r: (StoreState, seq<Delivery<UiState>>))
    ensures r.0.registry.observers == st.registry.observers + [o]
    ensures r.0.registry.latest == st.registry.latest
    ensures r.0.pending == st.pending && r.0.historyCapacity == st.historyCapacity
    ensures r.0.upstreamSubscribed == st.upstreamSubscribed
    ensures r.1 == if st.registry.latest.Some? then [Delivery(o, st.registry.latest.value)] else []
  {
    var c := Observers.Subscribe(st.registry, o);
    (st.(registry := c.registry), c.replays)
  }

  /** A subscription handle's `Dispose`: removes one registration of its observer. */
  function Unsubscribe(st: StoreState, o: ObserverId): (r: StoreState)
    ensures multiset(r.registry.observers) == multiset(st.registry.observers) - multiset{o}
    ensures o !in st.registry.observers ==> r == st
    ensures o in st.registry.observers ==>
      var i := FirstIndex(st.registry.observers, o);
      r.registry.observers == st.registry.observers[..i] + st.registry.observers[i + 1..]
    ensures r.registry.latest == st.registry.latest && r.pending == st.pending
    ensures r.historyCapacity == st.historyCapacity && r.upstreamSubscribed == st.upstreamSubscribed
  {
    st.(registry := Observers.Unsubscribe(st.registry, o))
  }

  /** `Dispose`: drops the upstream subscription and clears the observers; the
      latest state and the queued publications are kept. */
  function Dispose(st: StoreState): (r: StoreState)
    ensures !r.upstreamSubscribed && r.registry.observers == []
    ensures r.registry.latest == st.registry.latest && r.pending == st.pending
    ensures r.historyCapacity == st.historyCapacity
  {
    st.(upstreamSubscribed := false, registry := st.registry.(observers := []))
  }

  lemma DisposeIsIdempotent(st: StoreState)
    ensures Dispose(Dispose(st)) == Dispose(st)
  {
  }

  /** The dispatcher running the oldest queued publication: the state goes once
      to each observer registered when it runs, in list order. An observer
      subscribing from one of those callbacks is replayed the store's latest
      state inside that callback, before the next observer is notified. The
      calls are returned as rounds, one per observer, whose concatenation is
      the order they happen in. */
  function RunDispatched(st: StoreState, reactions: seq<seq<Reaction>>): (r: (StoreState, seq<seq<Delivery<UiState>>>))
    ensures st.pending == [] ==> r == (st, [])
    ensures st.pending != [] ==>
      && r.0.pending == st.pending[1..]
      && |r.1| == |st.registry.observers|
      && (forall i :: 0 <= i < |r.1| ==>
            |r.1[i]| >= 1 && r.1[i][0] == Delivery(st.registry.observers[i], st.pending[0]))
      && (forall i, j :: 0 <= i < |r.1| && 1 <= j < |r.1[i]| ==> Some(r.1[i][j].value) == st.registry.latest)
    ensures st.pending != [] && (forall i :: 0 <= i < |reactions| ==> reactions[i] == []) ==>
      && r.0.registry == st.registry
      && (forall i :: 0 <= i < |r.1| ==> |r.1[i]| == 1)
    ensures r.0.registry.latest == st.registry.latest
    ensures r.0.historyCapacity == st.historyCapacity && r.0.upstreamSubscribed == st.upstreamSubscribed
  {
    if st.pending == [] then (st, [])
    else
      var b := Publish(st.registry, st.pending[0], reactions);
      var rounds := Rounds(st.registry, st.registry.observers, st.pending[0], reactions);
      (st.(registry := b.registry, pending := st.pending[1..]), rounds)
  }

  /** An observer subscribed from the first observer's callback is replayed the
      latest state before the publication reaches it: with observers [1, 2],
      the calls are 1 gets P, 2 gets the latest L, 2 gets P, so 2 ends on P. */
  lemma DispatchedReplayComesFirst(p: UiState, l: UiState)
    ensures var st := StoreState(5, Registry([1, 2], Some(l)), true, [p]);
      Flatten(RunDispatched(st, [[Join(2)]]).1) == [Delivery(1, p), Delivery(2, l), Delivery(2, p)]
  {
    var reg := Registry([1, 2], Some(l));
    var first := ReactAll(reg, [Join(2)]);
    assert first.replays == [Delivery(2, l)] by {
      assert [Join(2)][1..] == [];
      assert React(reg, Join(2)).replays == [Delivery(2, l)];
    }
    var last := Rounds(first.registry, [2], p, []);
    assert last == [[Delivery(2, p)]] by {
      var after := ReactAll(first.registry, []);
      assert after == Changed(first.registry, []);
      assert [2][1..] == [];
      assert Rounds(after.registry, [], p, []) == [];
      assert last == [[Delivery(2, p)] + after.replays] + Rounds(after.registry, [2][1..], p, []);
      assert [Delivery(2, p)] + after.replays == [Delivery(2, p)];
      assert last == [[Delivery(2, p)]] + [];
    }
    var rs := Rounds(reg, [1, 2], p, [[Join(2)]]);
    assert rs == [[Delivery(1, p)] + first.replays] + last by {
      assert [1, 2][1..] == [2] && [[Join(2)]][1..] == [];
    }
    assert Flatten(last) == [Delivery(2, p)] by {
      assert last[1..] == [];
    }
    assert Flatten(rs) == rs[0] + Flatten(last) by {
      assert rs[1..] == last;
    }
  }

  /** Everything that can happen to a store. */
  datatype Event =
    | SnapshotArrives(snapshot: MemorySnapshot)
    | ObserverSubscribes(o: ObserverId)
    | HandleDisposed(o: ObserverId)
    | DispatcherRuns(reactions: seq<seq<Reaction>>)
    | StoreDisposed

  /** One event. A snapshot can still arrive after `Dispose`, from a tick that
      was already fanning out over its copy of the observer list, so arrival
      does not depend on the upstream link. Only an overflowing snapshot
      makes a step fail. */
  function Step(st: StoreState, e: Event): (r: Checked<StoreState>)
    ensures r.Overflow? <==> e.SnapshotArrives? && TotalManagedCommitted(e.snapshot).Overflow?
    ensures r.Ok? ==> r.value.historyCapacity == st.historyCapacity
    ensures r.Ok? && !e.SnapshotArrives? ==> r.value.registry.latest == st.registry.latest
  {
    match e
    case SnapshotArrives(s) => OnDomainSnapshot(st, s)
    case ObserverSubscribes(o) => Ok(Subscribe(st, o).0)
    case HandleDisposed(o) => Ok(Unsubscribe(st, o))
    case DispatcherRuns(reactions) => Ok(RunDispatched(st, reactions).0)
    case StoreDisposed => Ok(Dispose(st))
  }

  /** The events in order; an overflow stops the run. */
  function Run(st: StoreState, events: seq<Event>): Checked<StoreState>
    decreases |events|
  {
    if |events| == 0 then Ok(st)
    else match Step(st, events[0])
      case Overflow => Overflow
      case Ok(next) => Run(next, events[1..])
  }

  /** The store's invariant: a latest state carries the store's capacity and a
      history no longer than it. */
  predicate Valid(st: StoreState) {
    st.registry.latest.Some? ==>
      && st.registry.latest.value.historyCapacity == st.historyCapacity
      && 1 <= |st.registry.latest.value.totalManagedHistory| <= st.historyCapacity
  }

  lemma StepPreservesValid(st: StoreState, e: Event)
    requires Valid(st)
    requires Step(st, e).Ok?
    ensures Valid(Step(st, e).value)
    ensures st.registry.latest.Some? ==> Step(st, e).value.registry.latest.Some?
  {
  }

  /** Once a latest state exists it never goes away, and every latest state
      respects the capacity, whatever happens to the store. */
  lemma {:induction false} LatestStaysSetAndBounded(st: StoreState, events: seq<Event>)
    requires Valid(st)
    requires Run(st, events).Ok?
    ensures Valid(Run(st, events).value)
    ensures st.registry.latest.Some? ==> Run(st, events).value.registry.latest.Some?
    decreases |events|
  {
    if |events| > 0 {
      StepPreservesValid(st, events[0]);
      LatestStaysSetAndBounded(Step(st, events[0]).value, events[1..]);
    }
  }

  /** Snapshots fed one after another. */
  function Feed(st: StoreState, snapshots: seq<MemorySnapshot>): Checked<StoreState>
    decreases |snapshots|
  {
    if |snapshots| == 0 then Ok(st)
    else match OnDomainSnapshot(st, snapshots[0])
      case Overflow => Overflow
      case Ok(next) => Feed(next, snapshots[1..])
  }

  /** The managed totals of snapshots whose totals do not overflow. */
  predicate TotalsFit(snapshots: seq<MemorySnapshot>) {
    forall i :: 0 <= i < |snapshots| ==> TotalManagedCommitted(snapshots[i]).Ok?
  }

  function Totals(snapshots: seq<MemorySnapshot>): (r: seq<int64>)
    requires TotalsFit(snapshots)
    ensures |r| == |snapshots|
  {
    if |snapshots| == 0 then []
    else [TotalManagedCommitted(snapshots[0]).value.bytes] + Totals(snapshots[1..])
  }

  /** Feeding snapshots pushes their totals onto the history, in order. */
  lemma {:induction false} FeedPushesTotals(st: StoreState, snapshots: seq<MemorySnapshot>)
    requires TotalsFit(snapshots)
    requires |snapshots| > 0 || st.registry.latest.Some?
    ensures Feed(st, snapshots).Ok?
    ensures Feed(st, snapshots).value.registry.latest.Some?
    ensures var previous := if st.registry.latest.Some? then st.registry.latest.value.totalManagedHistory else [];
      Feed(st, snapshots).value.registry.latest.value.totalManagedHistory
        == PushAll(previous, Totals(snapshots), st.historyCapacity)
    ensures Feed(st, snapshots).value.historyCapacity == st.historyCapacity
    decreases |snapshots|
  {
    if |snapshots| > 0 {
      var next := OnDomainSnapshot(st, snapshots[0]).value;
      var previous := if st.registry.latest.Some? then st.registry.latest.value.totalManagedHistory else [];
      var t := Totals(snapshots);
      assert TotalsFit(snapshots[1..]) by {
        forall i | 0 <= i < |snapshots[1..]| ensures TotalManagedCommitted(snapshots[1..][i]).Ok? {
          assert snapshots[1..][i] == snapshots[i + 1];
        }
      }
      FeedPushesTotals(next, snapshots[1..]);
      PushAllPrepend(previous, t[0], Totals(snapshots[1..]), st.historyCapacity);
      assert t == [t[0]] + Totals(snapshots[1..]);
    }
  }

  lemma {:induction false} PushAllPrepend(history: seq<int64>, v: int64, values: seq<int64>, capacity: int)
    requires capacity >= 0
    ensures PushAll(PushHistory(history, v, capacity), values, capacity) == PushAll(history, [v] + values, capacity)
    decreases |values|
  {
    if |values| == 0 {
      assert [v] + values == [v];
      assert [v][..0] == [];
    } else {
      var front := values[..|values| - 1];
      PushAllPrepend(history, v, front, capacity);
      assert ([v] + values)[..|[v] + values| - 1] == [v] + front;
    }
  }

  /** After n snapshots into a fresh store, the history holds the last
      min(n, capacity) totals, most recent first. */
  lemma HistoryKeepsLastTotals(st: StoreState, snapshots: seq<MemorySnapshot>)
    requires st.registry.latest.None?
    requires |snapshots| > 0 && TotalsFit(snapshots)
    ensures Feed(st, snapshots).Ok? && Feed(st, snapshots).value.registry.latest.Some?
    ensures Feed(st, snapshots).value.registry.latest.value.totalManagedHistory
         == Reverse(Totals(snapshots))[..Min(|snapshots|, st.historyCapacity)]
  {
    FeedPushesTotals(st, snapshots);
    PushAllKeepsMostRecent([], Totals(snapshots), st.historyCapacity);
    assert Reverse(Totals(snapshots)) + [] == Reverse(Totals(snapshots));
  }

  /** A snapshot whose heap breakdown sums to `v` bytes, all in generation 0. */
  function SnapshotWithTotal(v: int64): (s: MemorySnapshot)
    ensures TotalManagedCommitted(s) == Ok(ByteSize(v))
  {
    var z := ByteSizes.Zero;
    var heap := HeapBreakdowns.HeapBreakdown(
      Records.GenerationStats(Enums.Gen0, ByteSize(v), 0, z),
      Records.GenerationStats(Enums.Gen1, z, 0, z),
      Records.GenerationStats(Enums.Gen2, z, 0, z),
      Records.SegmentStats(Enums.HeapKind.LOH, z, z),
      Records.SegmentStats(Enums.HeapKind.POH, z, z));
    var gc := Records.GcStats(0, 0, 0, 0, Percents.Zero, z, z, z);
    MemorySnapshot(Records.Timestamp(0), Records.ProcessMemory(z, z, z, 1), gc, heap, ThreadsSnapshots.ThreadsSnapshot(1, []))
  }

  /** Seven snapshots with managed totals 100, 200, ..., 700 into a store of
      capacity 5 leave the history [700, 600, 500, 400, 300]. */
  lemma SevenIntoFiveExample()
    ensures var snapshots := seq(7, i requires 0 <= i < 7 => SnapshotWithTotal(100 * (i + 1)));
      && Create(5, None).Ok?
      && TotalsFit(snapshots)
      && Feed(Create(5, None).value, snapshots).Ok?
      && Feed(Create(5, None).value, snapshots).value.registry.latest.Some?
      && Feed(Create(5, None).value, snapshots).value.registry.latest.value.totalManagedHistory
           == [700, 600, 500, 400, 300]
  {
    var snapshots := seq(7, i requires 0 <= i < 7 => SnapshotWithTotal(100 * (i + 1)));
    var st := Create(5, None).value;
    assert TotalsFit(snapshots);
    HistoryKeepsLastTotals(st, snapshots);
    var t := Totals(snapshots);
    assert t == [100, 200, 300, 400, 500, 600, 700] by {
      TotalsIndexed(snapshots);
    }
    assert Reverse(t)[..5] == [700, 600, 500, 400, 300] by {
      ReverseIndexed(t);
    }
  }

  lemma {:induction false} TotalsIndexed(snapshots: seq<MemorySnapshot>)
    requires TotalsFit(snapshots)
    ensures forall i :: 0 <= i < |snapshots| ==> Totals(snapshots)[i] == TotalManagedCommitted(snapshots[i]).value.bytes
    decreases |snapshots|
  {
    if |snapshots| > 0 {
      assert TotalsFit(snapshots[1..]) by {
        forall i | 0 <= i < |snapshots[1..]| ensures TotalManagedCommitted(snapshots[1..][i]).Ok? {
          assert snapshots[1..][i] == snapshots[i + 1];
        }
      }
      TotalsIndexed(snapshots[1..]);
    }
  }
}
